=== FILE: README.md ===
# FilesExtended utilities, modelled in Dafny

This project models the string and path logic of the `files` package in
Dafny 4.11 and proves properties about that model. The package is a small
Java library of file utilities. It contains:

- `PathsExtended.mismatch`: the index of the first differing name of two
  paths, with roots ignored.
- The file-number engine of `FilesExtended`. It reads, rewrites and
  advances the bracketed number in a file name such as `report (2).txt`.
  Alongside it are `removeQuotations`, `getFileExtension` and
  `removeFileExtension`.
- The string utilities of `FileWildcard`:
  - how the constructor derives a card;
  - `equals`;
  - the quote-aware list reader `getWildcardsFromString`;
  - `removeDuplicateWildcards`;
  - `getWildcardList`;
  - `getExtensionWildcards`.
- `ConfigExtensions.getSettingNumber` and `getSettingHeader`.
- The file filters `FileSizeFilter` and `DirectoryFilter`.

Modules, one per file:

| module | file | models |
|---|---|---|
| `Wrappers` | wrappers.dfy | `Option`, `Result`, and the Java exceptions that can be thrown |
| `JavaText` | java_text.dfy | the `String`/`Character`/`Integer` operations used: `trim`, `isBlank`, `indexOf`, `lastIndexOf`, `parseInt`, 32-bit `int` arithmetic |
| `JavaFile` | java_file.dfy | `java.io.File` on a Unix platform: path normalization, `getParent()`, `getName()` |
| `Sequences` | sequences.dfy | `List.lastIndexOf`/`remove`, and first-occurrence deduplication with its properties |
| `PathsExtended` | paths_extended.dfy | `mismatch` |
| `FileNumberPattern` | file_number_pattern.dfy | the regular expression `\Q L \E \d+ \Q R \E` searched for inside a matcher region |
| `FilesExtended` | files_extended.dfy | quotations, extensions and the file-number engine |
| `FileNumberProofs` | file_number_proofs.dfy | properties that relate several file-number operations |
| `FileWildcard` | file_wildcard.dfy | the `FileWildcard` utilities |
| `ConfigExtensions` | config_extensions.dfy | the settings lookups |
| `FileFilters` | file_filters.dfy | `FileSizeFilter` and `DirectoryFilter` |

Modelling choices:

- **Files.** A `File` is its normalized path string. Unix conventions are
  used: the separator is `/` and the path separator is `:`.
- **The filesystem.** Filesystem facts are data. A `FileSystem` records
  which paths are regular files and which exist. A `Disk` records which
  paths are files, which are directories, and each path's length.
- **Exceptions and null.** The exceptions the modelled code throws on
  its own become `Result` errors: `IllegalArgumentException`,
  `IndexOutOfBoundsException` and the `NullPointerException` of
  `getSettingHeader`. `None` stands for `null` only in these places: the
  elements and the `arg` of the `ConfigExtensions` lookups, the pathnames
  given to the filters, the inner filter of `DirectoryFilter`, and the
  elements of the list given to `getExtensionWildcards`. Every other path,
  string and `File` argument is never null here ("## Left out").
- **Integers.** Java's 32-bit `int` appears where it matters:
  - `Integer.parseInt` overflow, which `getCurrentFileNumber` turns into
    `null`;
  - the `num + 1` and the `pos++` of `getNextAvailableFilePath`, written
    as Java computes them by `FileNumberProofs.SearchStartAsWritten` and
    `FileNumberProofs.PosAfter`.

  `FilesExtended.NextAvailableFilePath` itself counts over unbounded
  naturals. That is the corrected search of "## Findings".

  A `long` is a bounded integer subset type.
- **Loops.** The tokenizer of `getWildcardsFromString` is written twice.
  The method follows the Java index loop step by step. The recursive
  function `Lex` reads the list piece by piece. The method is proved to
  produce exactly `Lex`'s result.
- **`RemoveDuplicateWildcards`.** The method follows the Java
  `lastIndexOf`/`remove` loop. It is proved to compute the
  first-occurrence deduplication `Dedup`.

## Where the code and its documentation part ways

In each of these places the model follows the code:

- **Negative start in `mismatch`.** A negative `fromIndex` is not always
  the same as 0. Take two different paths that both have no names, such as
  two different roots. From 0, `mismatch` returns 0, because
  `fromIndex >= length` holds. From a negative index, that test fails and
  the empty loop returns -1 (`PathsExtended.MismatchNegativeStart`).
- **Quotes in `getWildcardsFromString`.**
  - When a `"` arrives, an unquoted piece already under way is dropped
    without being added, because `start` jumps past the quote.
  - An unclosed quote makes the rest of the list one wildcard.
- **The file-number region.** For a file directly below the root, the
  region starts at `getParent().length() + 1 = 2`. That is one character
  into the name, so a number that starts the name is not found
  (`FilesExtended.RegionStartBelowRoot`).
- **`getParent() + separator`.** When a file has no parent, this
  comparison is against the text `null/` (`JavaFile.ParentText`).
- **`trim` and `isBlank`.** Java's `trim` removes every character up to
  U+0020, while `isBlank` uses `Character.isWhitespace`. The model keeps
  the two apart.
- **Characters.** A Dafny `string` is a sequence of Unicode scalar
  values, while Java's `String` indices and `length()` count UTF-16 code
  units. The two agree on text inside the Basic Multilingual Plane. They
  differ for a supplementary character: one element here, two in Java. For
  example, when the first character of a name directly below the root is
  supplementary, Java's region start 2 falls between its two surrogates,
  while the model's region start 2 is after the whole character. With
  "(" and ")" as brackets the number found is the same either way.

## Model

| member | source | states |
|---|---|---|
| PathsExtended.Mismatch | src/files/PathsExtended.java:59-93 | gives -1 for equal paths and the shorter name count for different paths when the start is at or past that count. Otherwise the result is -1 or lies in [max(fromIndex,0), min count]. Below the min count, the names at the result differ and all names before it agree. A start below the min count gives the min count only when the counts differ and every name from the start agrees, so a difference below the min count is always reported at its index. -1 holds exactly when the paths are equal or the name lists agree from the start to an equal end |
| PathsExtended.MismatchFrom | src/files/PathsExtended.java:78-92 | the iterator loop returns the first index from `i` where the names differ, or the shorter count when one list runs out first, or -1 when both lists agree to the same end |
| PathsExtended.Mismatch2 | src/files/PathsExtended.java:133-135 | the two-argument form is the three-argument form with start 0 |
| PathsExtended.MismatchSelf | src/files/PathsExtended.java:65-66 | a path never mismatches itself, for every start index |
| PathsExtended.MismatchProperPrefix | src/files/PathsExtended.java:89-91 | when one name list is a proper prefix of the other, the shorter name count is returned |
| PathsExtended.MismatchIgnoresRoots | src/files/PathsExtended.java:77-92 | equal name lists under different roots give -1 when the start is below the name count |
| PathsExtended.MismatchRootsOnly | src/files/PathsExtended.java:68-71 | paths that differ only by root give the name count when the start is at or past it |
| PathsExtended.MismatchNegativeStart | src/files/PathsExtended.java:70-82 | a negative start behaves like 0, except for two different paths that both have no names, which give -1 |
| PathsExtended.MismatchSymmetric | src/files/PathsExtended.java:65-92 | swapping the two paths does not change the result |
| PathsExtended.MismatchNoCommonPrefix | src/files/PathsExtended.java:84-87 | paths whose first names differ mismatch at index 0 |
| JavaText.Trim | src/files/FilesExtended.java:59 | `trim` leaves no character up to U+0020 at either end, never lengthens, and leaves a trimmed string alone |
| JavaText.TrimSlice | src/files/FilesExtended.java:59 | `trim` returns a slice of its input, and everything it removes from either end is a character up to U+0020 |
| JavaText.IndexOfFrom | src/files/wildcard/FileWildcard.java:170 | `indexOf` finds the first occurrence at or after `from`, or reports that there is none |
| JavaText.LastIndexOf | src/files/FilesExtended.java:58 | `String.lastIndexOf` returns an occurrence with none after it, or -1 |
| JavaText.LastIndexOfIsLastIndex | src/files/FilesExtended.java:58 | `String.lastIndexOf` is `List.lastIndexOf` on the string's characters |
| JavaText.ParseInt | src/files/FilesExtended.java:196-202 | `Integer.parseInt` of the digits succeeds exactly for a non-empty digit string whose value fits in an `int`, and then returns that value |
| JavaText.ParseIntToString | src/files/FilesExtended.java:197-198 | the decimal text of every `int` from 0 up parses back to that value |
| JavaText.Increment | src/files/FilesExtended.java:317 | `pos++` adds one below `MAX_VALUE` and wraps `MAX_VALUE` to `MIN_VALUE` |
| JavaText.IncrementWrap | src/files/FilesExtended.java:317 | adding one to a wrapped value wraps like adding one first, so repeated `pos++` is one wrap of the sum |
| JavaFile.NewFile | src/files/FilesExtended.java:67 | `new File(s)` leaves an already normalized path unchanged, and keeps exactly the non-separator characters of `s` |
| JavaFile.NewFileSubsequence | src/files/FilesExtended.java:67 | `new File(s)` only drops separators: the result is `s` with characters taken out, the rest in order |
| JavaFile.Parent | src/files/FilesExtended.java:146 | `getParent()` is a proper prefix of the path, and is null only for the root or a path without separators |
| JavaFile.ParentAtLastSeparator | src/files/FilesExtended.java:146 | `getParent()` is everything before the last separator when that separator lies past the start, "/" for a child of the root, and null for the root or a path without separators |
| JavaFile.Name | src/files/FilesExtended.java:106 | `getName()` is a separator-free suffix of the path |
| JavaFile.ParentNameSplit | src/files/FilesExtended.java:173-174 | parent, separator and name rebuild the path; directly below the root there is no second separator |
| FilesExtended.RemoveQuotations | src/files/FilesExtended.java:52-60 | a blank input gives ""; without quotes the result is the trimmed input; the result is always trimmed |
| FilesExtended.RemoveQuotationsQuoted | src/files/FilesExtended.java:55-59 | the text between the first quote and the last quote is returned, trimmed |
| FilesExtended.RemoveQuotationsSingle | src/files/FilesExtended.java:55-59 | with a single quote, everything after it is returned, trimmed |
| FilesExtended.RemoveQuotationsFile | src/files/FilesExtended.java:66-68 | the `File` form is the string form applied to the path, then normalized |
| FilesExtended.FileExtension | src/files/FilesExtended.java:102-110 | a path that is not a regular file, or a trimmed name without '.', has no extension. Otherwise the extension is the end of the trimmed name right after a '.', and holds neither '.' nor a separator, so that '.' is the last one |
| FilesExtended.FileExtensionAfterLastDot | src/files/FilesExtended.java:107-109 | for a regular file whose trimmed name has a '.', the extension is the substring after `lastIndexOf('.')` |
| FilesExtended.FileExtensionOfText | src/files/FilesExtended.java:94-96 | a blank path has no extension; any other path has the extension of `new File(path)` |
| FilesExtended.RemoveFileExtension | src/files/FilesExtended.java:82-88 | the result is a prefix of the path: the whole path when the extension is blank, otherwise exactly '.' and the extension shorter |
| FilesExtended.RemoveFileExtensionOfText | src/files/FilesExtended.java:74-76 | a blank path gives ""; any other path gives `new File(path)` without its extension |
| FilesExtended.FileNumberMatch | src/files/FilesExtended.java:142-148 | the matcher reports `IndexOutOfBounds` exactly when the region start passes its end; otherwise it finds the leftmost-starting `L digits R` token lying wholly in the region, with the longest digit run, or reports that there is none |
| FilesExtended.CurrentFileNumber | src/files/FilesExtended.java:191-217 | without a token in the region the number is null; the error case is exactly the inverted region |
| FilesExtended.CurrentFileNumberOfFirstMatch | src/files/FilesExtended.java:191-203 | the number read is the parsed digits of the first token, whichever way that token is described |
| FilesExtended.CurrentFileNumberInParentheses | src/files/FilesExtended.java:225-227 | the one-argument form uses "(" and ")" |
| FilesExtended.TokenValue | src/files/FilesExtended.java:193-202 | no match gives null; a match gives the `parseInt` of its digits, null on overflow |
| FilesExtended.ExtensionTail | src/files/FilesExtended.java:168-170 | the tail is "." plus the extension, or the blank extension itself |
| FilesExtended.SplitAtFileNumber | src/files/FilesExtended.java:160-178 | with a token, head + token + tail is the path and the head ends where the token starts. Without one, the tail is ".ext" (or "") and the head is the rest, plus a space unless it is blank or equals parent + separator |
| FilesExtended.JoinNumber | src/files/FilesExtended.java:241-253 | 0 drops a number that ended the name after a space (trimmed head + tail); everything else writes head + L + num + R + tail |
| FilesExtended.ChangeFileNumber | src/files/FilesExtended.java:266-282 | a negative number is `IllegalArgument` and nothing else is; a blank name is returned as is. An error otherwise means exactly an inverted region. Writing the current number, or 0 where there is none, returns the file unchanged |
| FilesExtended.ChangeFileNumberInParentheses | src/files/FilesExtended.java:293-295 | the two-argument form uses "(" and ")" |
| FilesExtended.SearchStart | src/files/FilesExtended.java:311-317 | the search starts one past the current number, or at 1 without one, in unbounded arithmetic |
| FilesExtended.LengthBound | src/files/FilesExtended.java:317 | every path of a finite set of existing paths has a length below a common bound |
| FilesExtended.CandidateLength | src/files/FilesExtended.java:318-319 | a candidate for a number of more than k digits is longer than k characters, so only finitely many candidates can exist |
| FilesExtended.SearchFree | src/files/FilesExtended.java:315-321 | the loop stops at the least number from the start whose candidate does not exist; all lower candidates exist |
| FilesExtended.NextAvailableFilePath | src/files/FilesExtended.java:304-322 | a blank name is returned as is. Otherwise the result is the candidate, built from sections split once, for the least number from the search start whose path does not exist, or `IndexOutOfBounds` exactly for an inverted region |
| FilesExtended.ExtensionOfName | src/files/FilesExtended.java:106-109 | what follows the last '.' of a trimmed name is a dot-free, separator-free suffix of the name |
| FilesExtended.ExtensionFits | src/files/FilesExtended.java:87 | the extension and its dot fit inside the path, so the `substring` of `removeFileExtension` is in range |
| FilesExtended.RegionStartBelowRoot | src/files/FilesExtended.java:146 | for a child of the root the matcher region starts at 2, one character into the name |
| FileNumberPattern.FindToken | src/files/FilesExtended.java:144-147 | `find()` on the region returns the first match (least start, then the longest digit run), or none exactly when no match lies in the region |
| FileNumberPattern.MatchAt | src/files/FilesExtended.java:45 | at a given start, the greedy `\d+` takes the longest digit run that is followed by the right bracket |
| FileNumberPattern.FirstMatchUnique | src/files/FilesExtended.java:193-195 | there is only one first match |
| FileNumberProofs.ChangeThenRead | src/files/FilesExtended.java:266-282 | after a positive number is written, it is read back, provided the new path is not itself a regular file |
| FileNumberProofs.ChangeIsCandidate | src/files/FilesExtended.java:252 | a positive number other than the current one is written as head + L + num + R + tail, the search's candidate for that number |
| FileNumberProofs.ChangeToZero | src/files/FilesExtended.java:245-252 | 0 replacing a non-zero number removes it only at the end of the name after a space, and otherwise writes a literal zero |
| FileNumberProofs.WrittenOverToken | src/files/FilesExtended.java:163-164 | a number written in place of the first token is the number read from the new path |
| FileNumberProofs.WrittenAtExtension | src/files/FilesExtended.java:166-176 | a number added where there was none is the number read from the new path |
| FileNumberProofs.WrittenAtExtensionText | src/files/FilesExtended.java:171-176 | writing at the extension leaves a path that normalization does not change, with the same region start |
| FileNumberProofs.AtExtensionBounds | src/files/FilesExtended.java:168-175 | without a token, the extension cut lies inside the region and the head is the path up to it, perhaps plus a space |
| FileNumberProofs.ReplaceInName | src/files/FilesExtended.java:146 | replacing text inside the name keeps the path normalized and keeps its parent, hence the region start |
| FileNumberProofs.SearchStartAsWritten | src/files/FilesExtended.java:311-317 | the loop's first number in Java's 32-bit arithmetic: the current number plus one, wrapping at `MAX_VALUE`, or 1 |
| FileNumberProofs.SearchStartsAgree | src/files/FilesExtended.java:317 | below `MAX_VALUE` the wrap-around never shows: the 32-bit and the unbounded start agree |
| FileNumberProofs.SearchStartWraps | src/files/FilesExtended.java:317 | at `MAX_VALUE` the loop as written starts at `MIN_VALUE`, and its first candidate carries a minus sign |
| FileNumberProofs.MaxIntFileNumber | src/files/FilesExtended.java:191-203 | the file "a (2147483647)" holds the number `MAX_VALUE`, so the wrap-around is reachable |
| FileNumberProofs.PlainNameReads | src/files/FilesExtended.java:191-203 | a bracket-free name followed by digits in parentheses holds that number, and those digits are the first token |
| FileNumberProofs.PosAfter | src/files/FilesExtended.java:317 | after `n` executions of `pos++` from `start`, `pos` holds `start + n` wrapped to 32 bits |
| FileNumberProofs.CandidatesAsWrittenAgree | src/files/FilesExtended.java:241-252 | the loop's candidate, `new File` of the five-argument `changeFileNumber`, is "head L pos R tail" for every `pos` but 0. At 0 it is the trimmed head and the tail when the number ended the name after a space, and "head L 0 R tail" otherwise |
| FileNumberProofs.PlainCandidateAsWritten | src/files/FilesExtended.java:318-319 | below the name "a " the loop's candidate for any non-zero `pos` is "a (" + `pos` + ")" |
| FileNumberProofs.PosAfterMaxInt | src/files/FilesExtended.java:317 | one `pos++` from `MAX_VALUE` gives `MIN_VALUE` |
| FileNumberProofs.WrapTexts | src/files/FilesExtended.java:317 | with only "a (2147483647)" existing, the text for `MAX_VALUE` exists, one `pos++` gives `MIN_VALUE`, and its text does not exist |
| FileNumberProofs.StopsAtMinInt | src/files/FilesExtended.java:317-320 | when the candidate for `MAX_VALUE` exists and that for `MIN_VALUE` does not, the loop from `MAX_VALUE` stops after one step, at `MIN_VALUE` |
| FileNumberProofs.PlainCandidate | src/files/FilesExtended.java:318-319 | below the name "a " the candidate for any number is "a (" + the number + ")", unchanged by `new File` |
| FileNumberProofs.PlainWrapStops | src/files/FilesExtended.java:317-320 | with only "a (2147483647)" existing, the loop from `MAX_VALUE`, building its candidates with the five-argument `changeFileNumber`, stops at "a (-2147483648)" |
| FileNumberProofs.PlainSections | src/files/FilesExtended.java:308-314 | for "a (d)" with digits `d`, the number read is `parseInt(d)` and the sections are "a " and nothing |
| FileNumberProofs.BelowMaxIntSections | src/files/FilesExtended.java:308-314 | for "a (2147483646)" the loop starts at `MAX_VALUE` and the sections are "a " and nothing |
| FileNumberProofs.PosWraps | src/files/FilesExtended.java:304-321 | "a (2147483646)" next to an existing "a (2147483647)": `pos++` wraps, and the loop as written returns "a (-2147483648)", below the current number |
| FileWildcard.MakeWildcard | src/files/wildcard/FileWildcard.java:45-48 | the card is no longer than the normalized pattern, and a pattern without separators is its own card |
| FileWildcard.MakeWildcardLastComponent | src/files/wildcard/FileWildcard.java:46 | the card is the last component of the normalized pattern: the pattern is its parent, a separator and the card |
| FileWildcard.MakeWildcardIdempotent | src/files/wildcard/FileWildcard.java:46 | building a wildcard from a card gives back the same wildcard |
| FileWildcard.EqualsIsIdentity | src/files/wildcard/FileWildcard.java:125-132 | `equals` holds exactly when the two cards are the same |
| FileWildcard.Kept | src/files/wildcard/FileWildcard.java:180-181 | a piece is kept, trimmed, exactly when something is left after trimming |
| FileWildcard.LexPlain | src/files/wildcard/FileWildcard.java:176-194 | every text read is non-empty and trimmed, and holds no quote unless the piece before it did |
| FileWildcard.LexAtClosedQuote | src/files/wildcard/FileWildcard.java:168-171 | a closed quoted segment is one piece, whatever separators it holds, and reading resumes after the closing quote |
| FileWildcard.LexAtUnclosedQuote | src/files/wildcard/FileWildcard.java:168-170 | after an unclosed quote, the rest of the list is the last piece |
| FileWildcard.LexFromIsLex | src/files/wildcard/FileWildcard.java:165-194 | reading by positions in the whole list agrees with reading piece by piece |
| FileWildcard.GetWildcardsFromString | src/files/wildcard/FileWildcard.java:161-196 | the method returns the given list followed by the wildcards of the texts `Lex` reads from the card list, in order |
| FileWildcard.ReadAt | src/files/wildcard/FileWildcard.java:166-187 | one pass of the loop body keeps the emitted wildcards equal to the texts read so far, and moves the position forward or breaks |
| FileWildcard.EmitPiece | src/files/wildcard/FileWildcard.java:176-184 | ending a piece appends its trimmed text as a wildcard, and only when that text is not empty |
| FileWildcard.LexUnquoted | src/files/wildcard/FileWildcard.java:173-185 | without quotes, reading is splitting at ',', ' ' and ':' and keeping the pieces that are non-empty after trimming, trimmed |
| FileWildcard.TokensUnquoted | src/files/wildcard/FileWildcard.java:173-194 | for a whole list without quotes, the texts read are the pieces between ',', ' ' and ':' that are non-empty after trimming, trimmed |
| FileWildcard.RemoveDuplicateWildcards | src/files/wildcard/FileWildcard.java:213-223 | the `lastIndexOf`/`remove` loop computes the first-occurrence deduplication |
| FileWildcard.DedupKeepsLast | src/files/wildcard/FileWildcard.java:218 | once the element at `pos` has no later copy, the loop moves on, keeping it |
| FileWildcard.DedupRemoveLater | src/files/wildcard/FileWildcard.java:219 | removing a later copy changes neither the prefix nor the deduplication of the rest |
| Sequences.DedupSnoc | src/files/wildcard/FileWildcard.java:213-223 | the deduplication keeps the first occurrence: a new element is appended, a repeated one dropped |
| Sequences.DedupElements | src/files/wildcard/FileWildcard.java:213-223 | deduplication keeps exactly the elements of the list |
| Sequences.DedupDistinct | src/files/wildcard/FileWildcard.java:213-223 | the result has no duplicates |
| Sequences.DedupSubsequence | src/files/wildcard/FileWildcard.java:213-223 | the result keeps the relative order of the input |
| Sequences.DedupOfDistinct | src/files/wildcard/FileWildcard.java:213-223 | a list without duplicates is left unchanged |
| Sequences.DedupIdempotent | src/files/wildcard/FileWildcard.java:213-223 | deduplicating twice is deduplicating once |
| Sequences.LastIndex | src/files/wildcard/FileWildcard.java:218 | `List.lastIndexOf` returns an occurrence with none after it, or -1 |
| Sequences.RemoveAt | src/files/wildcard/FileWildcard.java:219 | `remove(k)` shifts the elements after `k` down by one and keeps those before it |
| FileWildcard.GetWildcardList | src/files/wildcard/FileWildcard.java:231-239 | the caller's list is left deduplicated, and the result is its cards, quoted and joined by ':' and a space, with nothing after the last; the empty list gives "" |
| FileWildcard.EntriesJoin | src/files/wildcard/FileWildcard.java:236-238 | the printed entries are the joined list plus one trailing separator and space, which the final `substring` cuts off |
| FileWildcard.TokensOfJoin | src/files/wildcard/FileWildcard.java:231-239 | reading a printed list of plain cards gives back its wildcards |
| FileWildcard.WildcardListRoundTrip | src/files/wildcard/FileWildcard.java:161-239 | printing a list with `getWildcardList` and reading it with `getWildcardsFromString` gives the list without duplicates |
| FileWildcard.ExtensionPattern | src/files/wildcard/FileWildcard.java:256-261 | "*" and cards starting with "*." are kept; a card starting with '.' gets "*" in front; any other card gets "*." in front |
| FileWildcard.ExtensionPatternFixed | src/files/wildcard/FileWildcard.java:256-261 | the pattern leaves a card alone exactly when the card is "*" or starts with "*." |
| FileWildcard.ExtensionPatternIdempotent | src/files/wildcard/FileWildcard.java:256-261 | formatting a pattern twice is formatting it once |
| FileWildcard.ExtensionEntry | src/files/wildcard/FileWildcard.java:250-262 | an entry is skipped exactly when it is null or blank, and otherwise gives one wildcard with its formatted pattern |
| FileWildcard.ExtensionEntryBuilt | src/files/wildcard/FileWildcard.java:262 | the wildcard made from the pattern keeps the pattern whole |
| FileWildcard.ExtensionWildcardsShape | src/files/wildcard/FileWildcard.java:256-262 | every card produced is "*" or starts with "*." |
| FileWildcard.ExtensionWildcardsAppend | src/files/wildcard/FileWildcard.java:249-263 | the entries are handled one by one, in order |
| FileWildcard.GetExtensionWildcards | src/files/wildcard/FileWildcard.java:246-265 | the for-each loop computes the entry-by-entry formatting |
| FileWildcard.ExtensionWildcardsOfFormatted | src/files/wildcard/FileWildcard.java:246-265 | wildcards already in extension form pass through unchanged |
| FileWildcard.ExtensionWildcardsIdempotent | src/files/wildcard/FileWildcard.java:246-265 | formatting a formatted list changes nothing |
| ConfigExtensions.GetSettingNumber | src/files/extensions/ConfigExtensions.java:36-43 | the result is the least index whose non-null entry equals `arg`, and -1 exactly when there is none; null entries and a null `arg` never match |
| ConfigExtensions.GetSettingHeader | src/files/extensions/ConfigExtensions.java:55-64 | the result is the first row, after only present non-matching rows, whose first cell is non-null and equals `arg`. It is -1 exactly when every row is present and none matches. A null row reached first is a `NullPointerException` |
| FileFilters.MaximumSizeFilter | src/files/filters/FileSizeFilter.java:48-50 | the one-argument constructor sets no minimum and the given maximum, which counts as set exactly when it is not negative |
| FileFilters.SizeFilter.SetMinimum | src/files/filters/FileSizeFilter.java:76-78 | changes the minimum and nothing else |
| FileFilters.SizeFilter.SetMaximum | src/files/filters/FileSizeFilter.java:84-86 | changes the maximum and nothing else |
| FileFilters.SizeFilterRejectsNonFiles | src/files/filters/FileSizeFilter.java:116 | null and paths that are not regular files are rejected |
| FileFilters.SizeFilterBothBounds | src/files/filters/FileSizeFilter.java:117-118 | with both bounds set, a regular file is accepted exactly when min <= length <= max |
| FileFilters.SizeFilterNoLimit | src/files/filters/FileSizeFilter.java:93-104 | a negative bound imposes no limit |
| FileFilters.SizeFilterEmptyRange | src/files/filters/FileSizeFilter.java:117-118 | with 0 <= max < min no path is accepted |
| FileFilters.SizeFilterWiden | src/files/filters/FileSizeFilter.java:76-86 | lowering or clearing the minimum and raising or clearing the maximum keeps every accepted path accepted |
| FileFilters.DirectoriesOnly | src/files/filters/DirectoryFilter.java:37-39 | the no-argument constructor has no inner filter |
| FileFilters.DirectoryFilterDirectories | src/files/filters/DirectoryFilter.java:61-64 | null is rejected and a directory is accepted whatever the inner filter |
| FileFilters.DirectoryFilterOthers | src/files/filters/DirectoryFilter.java:61-64 | a non-directory is rejected without an inner filter, and otherwise gets the inner filter's verdict |
| FileFilters.DirectoryAroundSize | src/files/filters/DirectoryFilter.java:61-64 | a directory filter around a size filter accepts the directories and the regular files within the size bounds |

## Left out

- `rename`, `delete`, `setHiddenAttribute`: filesystem mutation with retries whose outcome the operating system decides.
- `resolve`/`relativize` and their helpers: the `PathsExtended` methods they call are not part of this model.
- `getFilesFromFolder`: recursive directory listing, which is I/O.
- `createDirectories`, `convertFileFilter`, `generateExtensionFilter`, `getFileChooserFilter` and `FileChooserFileFilter`: Swing and GUI code.
- `FileWildcard.matches` and the `PathMatcher` the constructor compiles: glob matching is delegated to the platform. A wildcard is modelled by its card alone.
- `FileWildcard.hashCode`: it depends on the `PathMatcher`.
- `getFilesFromString`, `getFileList`: a regular-expression split on a platform-dependent separator.
- `endsWithFileExtension`: case folding (`toLowerCase`) is not modelled.
- `ImageExtensions`, `TextDocumentExtensions`, `CONFIG_FILTER`: static tables and a Swing filter.
- `HiddenFileFilter`: a single `isHidden()` negation.
- `ConfigExtensions`: a `null` array argument, which throws before any element is read, is not modelled. The arrays are sequences whose elements may be null.
- `FilesExtended.RemoveFileExtension`: the `null` file case is not modelled, because the `File` parameter is never null here.
- `FileWildcard.MakeWildcard`: a `null` pattern, rejected by `Objects.requireNonNull`, is not modelled. Nor is the `PatternSyntaxException` that `getPathMatcher` throws for a malformed glob such as `[` or `{a`, because glob syntax is not modelled. So where Java's `getWildcardsFromString("*.txt [")` throws, the model returns two wildcards.
- `PathsExtended.Mismatch`: the documented `NullPointerException` for a `null` path, thrown by `Objects.requireNonNull`, is not modelled; both paths are always present.
- `FilesExtended.FileExtension`: the `""` that Java returns for a `null` file is not modelled; the file is always present.
- `FilesExtended.FileExtensionOfText` and `FilesExtended.RemoveFileExtensionOfText`: a `null` path string, which throws `NullPointerException` at `isBlank`, is not modelled.
- `FilesExtended.RemoveQuotations` and `FilesExtended.RemoveQuotationsFile`: a `null` string or file, which throws `NullPointerException` at `isBlank` or `toString`, is not modelled.
- `FilesExtended.FileNumberMatch`, `FilesExtended.CurrentFileNumber`, `FilesExtended.ChangeFileNumber`, `FilesExtended.NextAvailableFilePath` and the other members that take a `File`: a `null` file throws `NullPointerException`, which is not modelled. A `null` bracket string, which `String.format` would print as the text `null`, is not modelled either; the brackets are always present.
- `FileWildcard.GetWildcardList`: the list holds wildcards, never `null`. Java prints a `null` element as `"null"`, and that case is not modelled.
- `FilesExtended.NextAvailableFilePath`: the search start is `num + 1` over unbounded naturals. Java's `num + 1` wraps at `Integer.MAX_VALUE`; that wrap is modelled only by the as-written member of "## Findings".
- `FilesExtended.SearchFree`: the loop steps over unbounded naturals. Java's `pos++` wraps at `Integer.MAX_VALUE`; that wrap is modelled only by the as-written member of "## Findings".
- `FileNumberPattern.Quotable`: brackets containing `\E` are excluded by a precondition. Inside `\Q...\E` such text would end the quotation, so the pattern would no longer be the literal bracket.
- `FileFilters.DirectoryFilter`: the inner filter is given as its verdict on each path, a function from path to boolean. Its own side effects are not modelled.
- `FileFilters.SizeFilter`: the getters `getMinumum`/`getMaximum` are the datatype fields `min`/`max`.
- `java.io.File`: only the Unix behaviour is modelled; Windows drive and UNC prefixes are left out.
- `FileWildcard.ExtensionEntry`: its contract states the card of the wildcard produced. That the wildcard is the one the constructor builds from the pattern is the separate lemma `FileWildcard.ExtensionEntryBuilt`.

## Findings

| source | as written | input that shows it | evidently intended | confidence | as-written member | corrected member |
|---|---|---|---|---|---|---|
| src/files/FilesExtended.java:311-317 | `int pos = num + 1` in 32-bit `int` | an existing file named `a (2147483647)`: `num + 1` wraps to -2147483648, and the first candidate is `a (-2147483648)`, a negative number that `changeFileNumber` itself rejects | the search starts past the current number | not executed | FileNumberProofs.SearchStartWraps | FilesExtended.NextAvailableFilePath |
| src/files/FilesExtended.java:317 | `pos++` in 32-bit `int` | the file `a (2147483646)` next to an existing `a (2147483647)`: the loop tries 2147483647, then `pos++` wraps and it returns `a (-2147483648)` | the search goes on with ever larger numbers and returns `a (2147483648)` | not executed | FileNumberProofs.PosWraps | FilesExtended.NextAvailableFilePath |

=== FILE: config_extensions.dfy ===
/** `ConfigExtensions`: finding a setting by name in a list of settings,
    and a header in the first column of a table of settings. A `null`
    array element is `None`. */
module ConfigExtensions {
  import opened Wrappers

  /** The extension of a config file. */
  const Cfg: string := "cfg"

  /** `settings[pos] != null && settings[pos].equals(arg)`: a `null`
      entry never matches, and no entry equals a `null` argument. */
  predicate Matches(entry: Option<string>, arg: Option<string>) {
    entry.Some? && entry == arg
  }

  /** `getSettingNumber`: the first index whose entry matches `arg`, or -1
      when none does. */
  method GetSettingNumber(settings: seq<Option<string>>, arg: Option<string>) returns (r: int)
    ensures -1 <= r < |settings|
    ensures r >= 0 ==> arg.Some? && settings[r] == arg
    ensures r >= 0 ==> forall i :: 0 <= i < r ==> !Matches(settings[i], arg)
    ensures r == -1 <==> forall i :: 0 <= i < |settings| ==> !Matches(settings[i], arg)
  {
    var pos := 0;
    while pos < |settings|
      invariant 0 <= pos <= |settings|
      invariant forall i :: 0 <= i < pos ==> !Matches(settings[i], arg)
    {
      if settings[pos].Some? && settings[pos] == arg {
        return pos;
      }
      pos := pos + 1;
    }
    return -1;
  }

  /** A row is headed by `arg`: it is not empty and its first cell
      matches. */
  predicate HeadedBy(row: seq<Option<string>>, arg: Option<string>) {
    |row| > 0 && Matches(row[0], arg)
  }

  /** The loop reaches row `k`: every row before it is present and not
      headed by `arg`. */
  predicate Reaches(rows: seq<Option<seq<Option<string>>>>, arg: Option<string>, k: nat)
    requires k <= |rows|
  {
    forall j :: 0 <= j < k ==> rows[j].Some? && !HeadedBy(rows[j].value, arg)
  }

  /** `getSettingHeader`: the first row headed by `arg`, skipping empty rows
      and rows whose first cell is `null`, or -1 when there is none. A
      `null` row reached before a match throws `NullPointerException` at
      `settings[pos].length`. */
  method GetSettingHeader(rows: seq<Option<seq<Option<string>>>>, arg: Option<string>)
      returns (r: Result<int, JavaError>)
    ensures r.Ok? ==> -1 <= r.value < |rows|
    ensures r.Ok? && r.value >= 0 ==>
              Reaches(rows, arg, r.value) && rows[r.value].Some? && HeadedBy(rows[r.value].value, arg)
    ensures r == Ok(-1) <==> Reaches(rows, arg, |rows|)
    ensures r.Err? ==>
              r.error == NullPointer &&
              exists k :: 0 <= k < |rows| && rows[k].None? && Reaches(rows, arg, k)
  {
    var pos := 0;
    while pos < |rows|
      invariant 0 <= pos <= |rows|
      invariant Reaches(rows, arg, pos)
    {
      if rows[pos].None? {
        return Err(NullPointer);
      }
      var row := rows[pos].value;
      if |row| > 0 && row[0].Some? && row[0] == arg {
        return Ok(pos);
      }
      pos := pos + 1;
    }
    return Ok(-1);
  }
}

=== FILE: file_filters.dfy ===
/** The `java.io.FileFilter`s `FileSizeFilter` and `DirectoryFilter`. A
    filter is a value; a setter returns the changed filter. A `null`
    pathname is `None`. */
module FileFilters {
  import opened Wrappers

  const MaxLong: int := 0x7FFF_FFFF_FFFF_FFFF
  const MinLong: int := -0x8000_0000_0000_0000

  /** A Java `long`. */
  type Long = x: int | MinLong <= x <= MaxLong

  /** The filesystem as a filter observes it: `isFile()`, `isDirectory()`
      and `length()` of each path. */
  datatype Disk = Disk(regularFiles: set<string>, directories: set<string>, lengths: map<string, Long>)
  {
    predicate IsFile(p: string) { p in regularFiles }
    predicate IsDirectory(p: string) { p in directories }

    /** `File.length()`: 0 for a path with no recorded length. */
    function Length(p: string): Long {
      if p in lengths then lengths[p] else 0
    }
  }

  // ----- FileSizeFilter -----

  /** A `FileSizeFilter`: the smallest and largest accepted sizes in bytes;
      a negative bound is no bound. */
  datatype SizeFilter = SizeFilter(min: Long, max: Long)
  {
    /** `isMinimumSizeSet()`. */
    predicate IsMinimumSizeSet() { min >= 0 }

    /** `isMaximumSizeSet()`. */
    predicate IsMaximumSizeSet() { max >= 0 }

    /** `setMinimum(minimum)`. */
    function SetMinimum(minimum: Long): (f: SizeFilter)
      ensures f.min == minimum && f.max == max
    {
      this.(min := minimum)
    }

    /** `setMaximum(maximum)`. */
    function SetMaximum(maximum: Long): (f: SizeFilter)
      ensures f.max == maximum && f.min == min
    {
      this.(max := maximum)
    }

    /** `accept(pathname)`: a regular file whose length is within the bounds
      that are set. */
    predicate Accept(disk: Disk, pathname: Option<string>) {
      && pathname.Some?
      && disk.IsFile(pathname.value)
      && (!IsMinimumSizeSet() || disk.Length(pathname.value) >= min)
      && (!IsMaximumSizeSet() || disk.Length(pathname.value) <= max)
    }
  }

  /** `new FileSizeFilter(maximum)`: no lower bound. */
  function MaximumSizeFilter(maximum: Long): (f: SizeFilter)
    ensures !f.IsMinimumSizeSet() && f.max == maximum
    ensures f.IsMaximumSizeSet() <==> maximum >= 0
  {
    SizeFilter(-1, maximum)
  }

  /** `null` and anything that is not a regular file are rejected. */
  lemma SizeFilterRejectsNonFiles(f: SizeFilter, disk: Disk, pathname: Option<string>)
    requires pathname.None? || !disk.IsFile(pathname.value)
    ensures !f.Accept(disk, pathname)
  {
  }

  /** With both bounds set, a regular file is accepted exactly when its
      length lies between them, both ends included. */
  lemma SizeFilterBothBounds(f: SizeFilter, disk: Disk, p: string)
    requires f.IsMinimumSizeSet() && f.IsMaximumSizeSet() && disk.IsFile(p)
    ensures f.Accept(disk, Some(p)) <==> f.min <= disk.Length(p) <= f.max
  {
  }

  /** A negative bound imposes no limit: the filter accepts what the filter
      without that bound accepts. */
  lemma SizeFilterNoLimit(f: SizeFilter, disk: Disk, p: string)
    requires disk.IsFile(p)
    ensures !f.IsMinimumSizeSet() ==>
              (f.Accept(disk, Some(p)) <==> !f.IsMaximumSizeSet() || disk.Length(p) <= f.max)
    ensures !f.IsMaximumSizeSet() ==>
              (f.Accept(disk, Some(p)) <==> !f.IsMinimumSizeSet() || disk.Length(p) >= f.min)
  {
  }

  /** Bounds that cross accept nothing. */
  lemma SizeFilterEmptyRange(f: SizeFilter, disk: Disk, pathname: Option<string>)
    requires 0 <= f.max < f.min
    ensures !f.Accept(disk, pathname)
  {
  }

  /** Lifting the upper bound or lowering the lower one only lets more
      files through. */
  lemma SizeFilterWiden(f: SizeFilter, disk: Disk, pathname: Option<string>, minimum: Long, maximum: Long)
    requires f.Accept(disk, pathname)
    requires minimum <= f.min || minimum < 0
    requires maximum < 0 || (f.IsMaximumSizeSet() && maximum >= f.max)
    ensures f.SetMinimum(minimum).SetMaximum(maximum).Accept(disk, pathname)
  {
  }

  // ----- DirectoryFilter -----

  /** A `DirectoryFilter`: directories always pass, other paths pass when
      the optional inner filter, given as its verdict on each path,
      accepts them. */
  datatype DirectoryFilter = DirectoryFilter(filter: Option<string -> bool>)
  {
    /** `getNonDirectoryFileFilter()`. */
    function NonDirectoryFileFilter(): Option<string -> bool> {
      filter
    }

    /** `accept(pathname)`. */
    predicate Accept(disk: Disk, pathname: Option<string>) {
      pathname.Some? &&
      (disk.IsDirectory(pathname.value) || (filter.Some? && filter.value(pathname.value)))
    }
  }

  /** `new DirectoryFilter()`: directories only. */
  function DirectoriesOnly(): (f: DirectoryFilter)
    ensures f.NonDirectoryFileFilter().None?
  {
    DirectoryFilter(None)
  }

  /** `null` is rejected, and a directory is accepted whatever the inner
      filter says. */
  lemma DirectoryFilterDirectories(f: DirectoryFilter, disk: Disk, pathname: Option<string>)
    ensures pathname.None? ==> !f.Accept(disk, pathname)
    ensures pathname.Some? && disk.IsDirectory(pathname.value) ==> f.Accept(disk, pathname)
  {
  }

  /** A path that is not a directory is rejected without an inner filter
      and otherwise gets the inner filter's verdict. */
  lemma DirectoryFilterOthers(f: DirectoryFilter, disk: Disk, p: string)
    requires !disk.IsDirectory(p)
    ensures f.NonDirectoryFileFilter().None? ==> !f.Accept(disk, Some(p))
    ensures f.NonDirectoryFileFilter().Some? ==>
              f.Accept(disk, Some(p)) == f.NonDirectoryFileFilter().value(p)
  {
  }

  /** Around a size filter, a directory filter accepts the directories and
      the regular files the size filter accepts. */
  lemma DirectoryAroundSize(s: SizeFilter, disk: Disk, p: string)
    ensures DirectoryFilter(Some(q => s.Accept(disk, Some(q)))).Accept(disk, Some(p)) <==>
              disk.IsDirectory(p) ||
              (disk.IsFile(p) && (s.min < 0 || s.min <= disk.Length(p)) && (s.max < 0 || disk.Length(p) <= s.max))
  {
  }
}

=== FILE: file_number_pattern.dfy ===
/** The regular expression `\Q<left>\E\d+\Q<right>\E` that finds a file
    number, run by `Matcher.find()` inside a region: the leftmost start
    wins, and at that start the greedy `\d+` takes as many digits as still
    let the right bracket follow. */
module FileNumberPattern {
  import opened Wrappers
  import opened JavaText

  /** A bracket that `\Q...\E` quotes literally: it does not itself
      contain the `\E` that would end the quotation early. */
  ghost predicate Quotable(s: string) {
    forall i, j :: 0 <= i && j == i + 1 && j < |s| ==> !(s[i] == '\\' && s[j] == 'E')
  }

  /** The left bracket, `k` digits and the right bracket occupy `s` from
      index `i`, ending no later than the region end `hi`. */
  predicate IsMatch(s: string, left: string, right: string, i: nat, k: nat, hi: nat) {
    && 1 <= k
    && i + |left| + k + |right| <= hi <= |s|
    && s[i..i + |left|] == left
    && AllDigits(s[i + |left|..i + |left| + k])
    && s[i + |left| + k..i + |left| + k + |right|] == right
  }

  /** A found token: where it starts and ends, and its digits. */
  datatype Token = Token(start: nat, digits: string, end: nat)

  /** `t` is what `find()` reports in the region `[lo, hi)`: a match, no
      match starting earlier, and no longer digit run at its start. */
  ghost predicate IsFirstMatch(s: string, left: string, right: string, lo: nat, hi: nat, t: Token) {
    && lo <= t.start
    && IsMatch(s, left, right, t.start, |t.digits|, hi)
    && t.digits == s[t.start + |left|..t.start + |left| + |t.digits|]
    && t.end == t.start + |left| + |t.digits| + |right|
    && (forall k :: |t.digits| < k ==> !IsMatch(s, left, right, t.start, k, hi))
    && (forall j, k :: lo <= j < t.start ==> !IsMatch(s, left, right, j, k, hi))
  }

  /** No match starts anywhere in the region. */
  ghost predicate NoMatch(s: string, left: string, right: string, lo: nat, hi: nat) {
    forall j, k :: lo <= j ==> !IsMatch(s, left, right, j, k, hi)
  }

  /** The number of consecutive digits in `s` from `j`, stopping at `hi`. */
  function DigitRun(s: string, j: nat, hi: nat): (r: nat)
    requires j <= hi <= |s|
    decreases hi - j
    ensures j + r <= hi
    ensures AllDigits(s[j..j + r])
    ensures j + r < hi ==> !IsDigit(s[j + r])
  {
    if j < hi && IsDigit(s[j]) then
      var r := 1 + DigitRun(s, j + 1, hi);
      assert s[j..j + r] == [s[j]] + s[j + 1..j + r];
      r
    else 0
  }

  /** Backtracking of the greedy `\d+`: tries `k`, `k - 1`, ..., 1 digits. */
  function GreedyAt(s: string, left: string, right: string, i: nat, hi: nat, k: nat): (r: Option<nat>)
    ensures r.Some? ==> r.value <= k && IsMatch(s, left, right, i, r.value, hi)
    ensures r.Some? ==> forall k': nat :: r.value < k' <= k ==> !IsMatch(s, left, right, i, k', hi)
    ensures r.None? ==> forall k': nat :: k' <= k ==> !IsMatch(s, left, right, i, k', hi)
  {
    if k == 0 then None
    else if IsMatch(s, left, right, i, k, hi) then Some(k)
    else GreedyAt(s, left, right, i, hi, k - 1)
  }

  /** The longest match starting exactly at `i`, if any. */
  function MatchAt(s: string, left: string, right: string, i: nat, hi: nat): (r: Option<nat>)
    requires hi <= |s|
    ensures r.Some? ==> IsMatch(s, left, right, i, r.value, hi)
    ensures r.Some? ==> forall k :: r.value < k ==> !IsMatch(s, left, right, i, k, hi)
    ensures r.None? ==> forall k :: !IsMatch(s, left, right, i, k, hi)
  {
    if i + |left| <= hi && s[i..i + |left|] == left then
      var run := DigitRun(s, i + |left|, hi);
      GreedyAt(s, left, right, i, hi, run)
    else None
  }

  /** Successive `find()` attempts from start index `i`. */
  function FindFrom(s: string, left: string, right: string, i: nat, hi: nat): (r: Option<Token>)
    requires hi <= |s|
    decreases hi - i
    ensures r.Some? ==> IsFirstMatch(s, left, right, i, hi, r.value)
    ensures r.None? ==> NoMatch(s, left, right, i, hi)
  {
    if i >= hi then None
    else match MatchAt(s, left, right, i, hi)
      case Some(k) =>
        Some(Token(i, s[i + |left|..i + |left| + k], i + |left| + k + |right|))
      case None =>
        var r := FindFrom(s, left, right, i + 1, hi);
        assert forall k :: !IsMatch(s, left, right, i, k, hi);
        r
  }

  /** `matcher.region(lo, hi)` followed by one `find()`. */
  function FindToken(s: string, left: string, right: string, lo: nat, hi: nat): (r: Option<Token>)
    requires hi <= |s|
    ensures r.Some? ==> IsFirstMatch(s, left, right, lo, hi, r.value)
    ensures r.None? <==> NoMatch(s, left, right, lo, hi)
  {
    FindFrom(s, left, right, lo, hi)
  }

  /** There is at most one first match, so `FindToken` is pinned down by
      `IsFirstMatch` alone. */
  lemma FirstMatchUnique(s: string, left: string, right: string, lo: nat, hi: nat, t: Token, u: Token)
    requires IsFirstMatch(s, left, right, lo, hi, t)
    requires IsFirstMatch(s, left, right, lo, hi, u)
    ensures t == u
  {
  }

  /** A match depends only on the characters it covers and on the region
      end, so it carries over to a text agreeing on a prefix. */
  lemma MatchTransfer(s: string, s': string, left: string, right: string, j: nat, k: nat, hi: nat, hi': nat, m: nat)
    requires IsMatch(s, left, right, j, k, hi)
    requires j + |left| + k + |right| <= m <= hi' <= |s'|
    requires m <= |s| && s[..m] == s'[..m]
    ensures IsMatch(s', left, right, j, k, hi')
  {
    var e := j + |left| + k + |right|;
    assert forall x :: 0 <= x < m ==> s[x] == s'[x] by {
      forall x | 0 <= x < m ensures s[x] == s'[x] {
        assert s[x] == s[..m][x] && s'[x] == s'[..m][x];
      }
    }
    assert s[j..j + |left|] == s'[j..j + |left|];
    assert s[j + |left|..j + |left| + k] == s'[j + |left|..j + |left| + k];
    assert s[j + |left| + k..e] == s'[j + |left| + k..e];
  }

  /** A token planted at `a` with one-character brackets is the first match
      when nothing matches wholly before it: a match starting earlier but
      reaching `a` would need the left bracket there to be a digit or the
      right bracket. */
  lemma PlantedToken(g: string, lc: char, rc: char, lo: nat, a: nat, d: string)
    requires !IsDigit(lc) && !IsDigit(rc) && lc != rc
    requires |d| >= 1 && AllDigits(d)
    requires lo <= a && a + |d| + 2 <= |g|
    requires g[a] == lc && g[a + 1..a + 1 + |d|] == d && g[a + 1 + |d|] == rc
    requires forall j: nat, k: nat :: lo <= j && j + k + 2 <= a ==> !IsMatch(g, [lc], [rc], j, k, |g|)
    ensures IsFirstMatch(g, [lc], [rc], lo, |g|, Token(a, d, a + |d| + 2))
  {
    assert g[a..a + 1] == [lc];
    assert g[a + 1 + |d|..a + |d| + 2] == [rc];
  }
}

=== FILE: file_number_proofs.dfy ===
/** Properties of the file-number engine that relate several operations:
    a number written by `ChangeFileNumber` is the one `CurrentFileNumber`
    reads back, and the search of `NextAvailableFilePath` starts past the
    current number. */
module FileNumberProofs {
  import opened Wrappers
  import opened JavaText
  import opened JavaFile
  import opened FileNumberPattern
  import opened FilesExtended

  /** The region starts at the name, or one character into it directly
      below the root. */
  lemma RegionStartInName(f: File)
    requires f != [Separator]
    ensures |f| - |Name(f)| <= RegionStart(f) <= |f| - |Name(f)| + 1
  {
    var index := LastIndexOf(f, Separator);
    if index < PrefixLength(f) && PrefixLength(f) == 1 {
      assert |f| > 1;
    }
  }

  /** The text from any position inside the name on has no separator. */
  lemma NameSuffixFree(f: string, a: nat)
    requires |f| - |Name(f)| <= a <= |f|
    ensures Separator !in f[a..]
  {
    var name := Name(f);
    assert f[a..] == name[a - (|f| - |name|)..];
  }

  /** Replacing separator-free text at the end of a path keeps its parent. */
  lemma ReplaceTail(f: string, a: nat, x: string)
    requires a <= |f| && f != [Separator]
    requires Separator !in f[a..] && Separator !in x && x != []
    ensures Parent(f[..a] + x) == Parent(f)
  {
    assert f[..a] + f[a..] == f;
    ParentOfAppend(f[..a], f[a..], x);
  }

  /** Replacing the text after position `a` of the name keeps the path
      normalized and keeps its parent. */
  lemma ReplaceInName(f: File, a: nat, x: string)
    requires f != [Separator]
    requires |f| - |Name(f)| <= a <= |f|
    requires Separator !in x && x != []
    ensures Normalized(f[..a] + x)
    ensures Parent(f[..a] + x) == Parent(f)
  {
    NoDoubleSeparatorPrefix(f, a);
    NormalizedAppend(f[..a], x);
    NameSuffixFree(f, a);
    ReplaceTail(f, a, x);
  }

  /** A path that is not a regular file has no extension to cut off. */
  lemma RegionEndOfNonFile(fs: FileSystem, g: File)
    requires !fs.IsFile(g)
    ensures RegionEnd(fs, g) == |g|
  {
  }

  /** No match in `g` ends by the end of `head`, when `g` starts with
      `head`, `head` is the first `e` characters of `f`, followed by at
      most a space, and no match of `f` in the region ends by `e`. */
  lemma NoMatchBefore(f: string, g: string, head: string, x: string, lo: nat, hiF: nat, e: nat)
    requires g == head + x
    requires e <= hiF <= |f|
    requires head == f[..e] || head == f[..e] + " "
    requires forall j: nat, k: nat :: lo <= j && j + k + 2 <= e ==> !IsMatch(f, "(", ")", j, k, hiF)
    ensures forall j: nat, k: nat :: lo <= j && j + k + 2 <= |head| ==> !IsMatch(g, "(", ")", j, k, |g|)
  {
    var a := |head|;
    assert g[..a] == head;
    forall j: nat, k: nat | lo <= j && j + k + 2 <= a
      ensures !IsMatch(g, "(", ")", j, k, |g|)
    {
      if IsMatch(g, "(", ")", j, k, |g|) {
        var m := j + k + 2;
        if m <= e {
          assert g[..m] == f[..m] by {
            assert g[..m] == head[..m] && f[..m] == f[..e][..m];
          }
          MatchTransfer(g, f, "(", ")", j, k, |g|, hiF, m);
        }
      }
    }
  }

  /** Digits written in parentheses after `head`, with no match wholly
      inside `head` from the region start, are what `CurrentFileNumber`
      reads. */
  lemma PlantedNumberReads(fs: FileSystem, g: File, head: string, d: string, tail: string)
    requires |d| >= 1 && AllDigits(d)
    requires g == head + "(" + d + ")" + tail
    requires RegionEnd(fs, g) == |g|
    requires RegionStart(g) <= |head|
    requires forall j: nat, k: nat :: RegionStart(g) <= j && j + k + 2 <= |head| ==> !IsMatch(g, "(", ")", j, k, |g|)
    ensures CurrentFileNumber(fs, g, "(", ")") == Ok(ParseInt(d))
  {
    var a := |head|;
    PlantedText(g, head, d, tail, a);
    PlantedToken(g, '(', ')', RegionStart(g), a, d);
    CurrentFileNumberOfFirstMatch(fs, g, "(", ")", Token(a, d, a + |d| + 2));
  }

  /** The first part of a concatenation is its prefix. */
  lemma PrefixOfAppend(a: string, b: string)
    ensures (a + b)[..|a|] == a
  {
  }

  /** Regrouping a concatenation of five strings. */
  lemma Regroup(p: string, q: string, r: string, u: string, v: string)
    ensures p + q + r + u + v == p + (q + r + u + v)
  {
  }

  /** Regrouping a concatenation of six strings. */
  lemma Regroup6(p: string, q: string, r: string, u: string, v: string, w: string)
    ensures p + q + r + u + v + w == p + (q + r + u + v + w)
  {
  }

  /** Where the parts of `head + "(" + d + ")" + tail` sit. */
  lemma PlantedText(g: string, head: string, d: string, tail: string, a: nat)
    requires g == head + "(" + d + ")" + tail && a == |head|
    ensures |g| == a + |d| + 2 + |tail|
    ensures g[..a] == head
    ensures g[a] == '(' && g[a + 1..a + 1 + |d|] == d && g[a + 1 + |d|] == ')'
  {
    assert g[..a] == head;
    assert g[a + 1..a + 1 + |d|] == d;
  }

  /** A number in parentheses followed by separator-free text holds no
      separator. */
  lemma NumberTextNoSeparator(d: string, tail: string)
    requires AllDigits(d) && Separator !in tail
    ensures Separator !in "(" + d + ")" + tail
    ensures Separator !in " " + "(" + d + ")" + tail
  {
    forall i | 0 <= i < |d| ensures d[i] != Separator {
      assert IsDigit(d[i]);
    }
  }

  /** A number written in place of the first token is read back. */
  lemma WrittenOverToken(fs: FileSystem, f: File, t: Token, d: string, g: File)
    requires |d| >= 1 && AllDigits(d) && f != [Separator]
    requires IsFirstMatch(f, "(", ")", RegionStart(f), RegionEnd(fs, f), t)
    requires g == NewFile(f[..t.start] + "(" + d + ")" + f[t.end..])
    requires !fs.IsFile(g)
    ensures CurrentFileNumber(fs, g, "(", ")") == Ok(ParseInt(d))
  {
    RegionStartInName(f);
    RegionEndOfNonFile(fs, g);
    var a := t.start;
    var head := f[..a];
    var tail := f[t.end..];
    NameSuffixFree(f, t.end);
    NumberTextNoSeparator(d, tail);
    Regroup(head, "(", d, ")", tail);
    ReplaceInName(f, a, "(" + d + ")" + tail);
    NoMatchBefore(f, g, head, "(" + d + ")" + tail, RegionStart(f), RegionEnd(fs, f), a);
    assert RegionStart(g) == RegionStart(f);
    PlantedNumberReads(fs, g, head, d, tail);
  }

  /** Without a token, the head is the path up to the extension cut,
      perhaps followed by a space, and the cut lies inside the region. */
  lemma AtExtensionBounds(fs: FileSystem, f: File, s: Sections, e: int)
    requires f != [Separator]
    requires RegionStart(f) <= RegionEnd(fs, f)
    requires s == SplitAtFileNumber(fs, f, None)
    requires e == |f| - |s.tail|
    ensures RegionStart(f) <= e <= RegionEnd(fs, f)
    ensures s.head == f[..e] || s.head == f[..e] + " "
  {
    RegionStartInName(f);
    ExtensionFits(fs, f);
    var rest := f[..e];
    assert s.head == (if IsBlank(rest) || rest == ParentText(f) + [Separator] then rest else rest + " ");
    var ext := FileExtension(fs, f);
    if IsBlank(ext) && ext != "" {
      assert |ext| < |Trim(Name(f))| <= |Name(f)|;
    }
  }

  /** A number in parentheses written after the first `e` characters of
      a path, inside its name, perhaps after a space, leaves a normalized
      path with the same parent. */
  lemma WrittenInName(f: File, e: nat, head: string, d: string, tail: string)
    requires f != [Separator] && |f| - |Name(f)| <= e <= |f|
    requires AllDigits(d) && Separator !in tail
    requires head == f[..e] || head == f[..e] + " "
    ensures Normalized(head + "(" + d + ")" + tail)
    ensures Parent(head + "(" + d + ")" + tail) == Parent(f)
  {
    var rest := f[..e];
    NumberTextNoSeparator(d, tail);
    if head == rest {
      var x := "(" + d + ")" + tail;
      Regroup(rest, "(", d, ")", tail);
      ReplaceInName(f, e, x);
    } else {
      var x := " " + "(" + d + ")" + tail;
      Regroup6(rest, " ", "(", d, ")", tail);
      ReplaceInName(f, e, x);
    }
  }

  /** Writing a number at the extension of a path keeps the new path
      unchanged by normalization and keeps its region start. */
  lemma WrittenAtExtensionText(fs: FileSystem, f: File, s: Sections, d: string, g: File)
    requires AllDigits(d) && f != [Separator]
    requires s == SplitAtFileNumber(fs, f, None)
    requires g == NewFile(s.head + "(" + d + ")" + s.tail)
    ensures g == s.head + "(" + d + ")" + s.tail
    ensures RegionStart(g) == RegionStart(f)
  {
    RegionStartInName(f);
    ExtensionFits(fs, f);
    var e := |f| - |s.tail|;
    NameSuffixFree(f, e);
    assert Separator !in s.tail;
    WrittenInName(f, e, s.head, d, s.tail);
  }

  /** A number written after the first `e` characters of a path (and
      perhaps a space), with no match of the path ending by `e`, is read
      back from the new path. */
  lemma WrittenAfterPrefix(fs: FileSystem, f: File, g: File, head: string, d: string, tail: string, e: nat)
    requires |d| >= 1 && AllDigits(d)
    requires g == head + "(" + d + ")" + tail && !fs.IsFile(g)
    requires RegionStart(g) == RegionStart(f) <= e <= RegionEnd(fs, f)
    requires head == f[..e] || head == f[..e] + " "
    requires forall j: nat, k: nat :: RegionStart(f) <= j && j + k + 2 <= e ==> !IsMatch(f, "(", ")", j, k, RegionEnd(fs, f))
    ensures CurrentFileNumber(fs, g, "(", ")") == Ok(ParseInt(d))
  {
    RegionEndOfNonFile(fs, g);
    Regroup(head, "(", d, ")", tail);
    NoMatchBefore(f, g, head, "(" + d + ")" + tail, RegionStart(f), RegionEnd(fs, f), e);
    PlantedNumberReads(fs, g, head, d, tail);
  }

  /** A number added where there was none is read back. */
  lemma WrittenAtExtension(fs: FileSystem, f: File, d: string, g: File)
    requires |d| >= 1 && AllDigits(d) && f != [Separator]
    requires RegionStart(f) <= RegionEnd(fs, f)
    requires NoMatch(f, "(", ")", RegionStart(f), RegionEnd(fs, f))
    requires var s := SplitAtFileNumber(fs, f, None);
             g == NewFile(s.head + "(" + d + ")" + s.tail)
    requires !fs.IsFile(g)
    ensures CurrentFileNumber(fs, g, "(", ")") == Ok(ParseInt(d))
  {
    var s := SplitAtFileNumber(fs, f, None);
    WrittenAtExtensionText(fs, f, s, d, g);
    var e := |f| - |s.tail|;
    AtExtensionBounds(fs, f, s, e);
    WrittenAfterPrefix(fs, f, g, s.head, d, s.tail, e);
  }

  /** With parentheses, a positive number written by `ChangeFileNumber`
      is read back by `CurrentFileNumber`, provided the new path is not
      itself a regular file (a regular file would have its own extension
      cut off first). */
  lemma ChangeThenRead(fs: FileSystem, f: File, n: Int32, g: File)
    requires n >= 1 && !IsBlank(Name(f))
    requires ChangeFileNumber(fs, f, "(", ")", n) == Ok(g)
    requires !fs.IsFile(g)
    ensures CurrentFileNumber(fs, g, "(", ")") == Ok(Some(n))
  {
    var m := FileNumberMatch(fs, f, "(", ")");
    if TokenValue(m.value) == Some(n) {
      assert g == f;
    } else {
      assert f != [Separator] by {
        assert Name([Separator]) == [];
      }
      ParseIntToString(n);
      match m.value
      case Some(t) =>
        WrittenOverToken(fs, f, t, NatToString(n), g);
      case None =>
        WrittenAtExtension(fs, f, NatToString(n), g);
    }
  }

  /** For a positive number that is not the current one, `ChangeFileNumber`
      writes the number between the sections: the new path is the search
      candidate for that number. */
  lemma ChangeIsCandidate(fs: FileSystem, f: File, left: string, right: string, num: Int32)
    requires Quotable(left) && Quotable(right)
    requires num >= 1 && !IsBlank(Name(f)) && RegionStart(f) <= RegionEnd(fs, f)
    requires CurrentFileNumber(fs, f, left, right) != Ok(Some(num))
    ensures var s := SplitAtFileNumber(fs, f, FileNumberMatch(fs, f, left, right).value);
            ChangeFileNumber(fs, f, left, right, num) == Ok(Candidate(s, left, right, num))
  {
    var m := FileNumberMatch(fs, f, left, right);
    assert m.Ok? && CurrentFileNumber(fs, f, left, right) == Ok(TokenValue(m.value));
    var s := SplitAtFileNumber(fs, f, m.value);
    assert JoinNumber(fs, f, s, left, right, num) == s.head + left + IntToString(num) + right + s.tail;
  }

  /** Zero removes a number only where it ends the name after a space;
      anywhere else a literal zero is written. */
  lemma ChangeToZero(fs: FileSystem, f: File, left: string, right: string)
    requires Quotable(left) && Quotable(right)
    requires !IsBlank(Name(f)) && RegionStart(f) <= RegionEnd(fs, f)
    requires CurrentFileNumber(fs, f, left, right).value.Some?
    requires CurrentFileNumber(fs, f, left, right).value.value != 0
    ensures var s := SplitAtFileNumber(fs, f, FileNumberMatch(fs, f, left, right).value);
            ChangeFileNumber(fs, f, left, right, 0) ==
              Ok(if NumberAtEnd(fs, f, s) then NewFile(Trim(s.head) + s.tail)
                 else Candidate(s, left, right, 0))
  {
  }

  // ----- the search start, as written and as intended -----

  /** The first number the `for` loop tries, in Java's 32-bit arithmetic:
      `num + 1` wraps around when the current number is `MaxInt`. */
  function SearchStartAsWritten(fs: FileSystem, f: File, left: string, right: string): (n: Int32)
    requires Quotable(left) && Quotable(right)
    requires RegionStart(f) <= RegionEnd(fs, f)
    ensures CurrentFileNumber(fs, f, left, right).value.Some? ==>
              n == Increment(CurrentFileNumber(fs, f, left, right).value.value)
    ensures CurrentFileNumber(fs, f, left, right).value.None? ==> n == 1
  {
    match CurrentFileNumber(fs, f, left, right).value
    case Some(v) => Increment(v)
    case None => 1
  }

  /** Below `MaxInt` the wrap-around never shows: both starts agree. */
  lemma SearchStartsAgree(fs: FileSystem, f: File, left: string, right: string)
    requires Quotable(left) && Quotable(right)
    requires RegionStart(f) <= RegionEnd(fs, f)
    requires CurrentFileNumber(fs, f, left, right) != Ok(Some(MaxInt))
    ensures SearchStartAsWritten(fs, f, left, right) == SearchStart(fs, f, left, right)
  {
  }

  /** At `MaxInt` the loop as written starts at `MinInt`, below the current
      number, and its first candidate carries a minus sign. */
  lemma SearchStartWraps(fs: FileSystem, f: File, left: string, right: string)
    requires Quotable(left) && Quotable(right)
    requires RegionStart(f) <= RegionEnd(fs, f)
    requires CurrentFileNumber(fs, f, left, right) == Ok(Some(MaxInt))
    ensures SearchStartAsWritten(fs, f, left, right) == MinInt
    ensures IntToString(SearchStartAsWritten(fs, f, left, right))[0] == '-'
    ensures SearchStart(fs, f, left, right) == MaxInt + 1
  {
  }

  /** In a path without separators that is a bracket-free head followed
      by a number in parentheses, that number is the first match. */
  lemma PlainNameFirstMatch(g: string, head: string, d: string)
    requires |d| >= 1 && AllDigits(d)
    requires Separator !in head && '(' !in head
    requires g == head + "(" + d + ")" + ""
    ensures IsFirstMatch(g, "(", ")", 0, |g|, Token(|head|, d, |g|))
  {
    forall j: nat, k: nat | j + k + 2 <= |head|
      ensures !IsMatch(g, "(", ")", j, k, |g|)
    {
      assert g[j] == head[j];
    }
    PlantedText(g, head, d, "", |head|);
    PlantedToken(g, '(', ')', 0, |head|, d);
  }

  /** A path without separators whose name is a bracket-free head
      followed by a number in parentheses holds that number: the first
      token is the one planted there. */
  lemma PlainNameReads(fs: FileSystem, g: File, head: string, d: string)
    requires |d| >= 1 && AllDigits(d)
    requires Separator !in head && '(' !in head
    requires g == head + "(" + d + ")" + "" && !fs.IsFile(g)
    ensures FileNumberMatch(fs, g, "(", ")") == Ok(Some(Token(|head|, d, |g|)))
    ensures CurrentFileNumber(fs, g, "(", ")") == Ok(ParseInt(d))
  {
    NumberTextNoSeparator(d, "");
    Regroup(head, "(", d, ")", "");
    assert Separator !in g;
    assert RegionStart(g) == 0;
    RegionEndOfNonFile(fs, g);
    var t := Token(|head|, d, |g|);
    PlainNameFirstMatch(g, head, d);
    CurrentFileNumberOfFirstMatch(fs, g, "(", ")", t);
    var m := FileNumberMatch(fs, g, "(", ")");
    FirstMatchUnique(g, "(", ")", 0, |g|, m.value.value, t);
  }

  /** A file named "a (2147483647)" holds the number `MaxInt`. */
  lemma MaxIntFileNumber(fs: FileSystem, g: File, n: Int32)
    requires n == MaxInt
    requires g == "a " + "(" + NatToString(n) + ")" && !fs.IsFile(g)
    ensures CurrentFileNumber(fs, g, "(", ")") == Ok(Some(MaxInt))
  {
    var d := NatToString(n);
    ParseIntToString(n);
    assert g == "a " + "(" + d + ")" + "";
    PlainNameReads(fs, g, "a ", d);
  }

  // ----- the loop counter, as written -----

  /** The value of `pos` after `n` executions of the 32-bit `pos++` from
      `start`. */
  function PosAfter(start: Int32, n: nat): (p: Int32)
    ensures p == WrapInt32(start + n)
  {
    if n == 0 then start
    else
      IncrementWrap(start + n - 1);
      Increment(PosAfter(start, n - 1))
  }

  /** The candidates of one search as the loop builds them, for every
      `int` the counter can hold: `new File` of the five-argument
      `changeFileNumber`, which drops the number when `pos` is 0 and the
      number sat at the end of the name after a space. */
  function CandidatesAsWritten(fs: FileSystem, f: File, s: Sections, left: string, right: string): int -> string
  {
    n => NewFile(JoinNumber(fs, f, s, left, right, n))
  }

  /** For every number but 0 the loop's candidate is `Candidate`; at 0 it
      loses its number when that sat at the end of the name after a space. */
  lemma CandidatesAsWrittenAgree(fs: FileSystem, f: File, s: Sections, left: string, right: string, n: int)
    ensures n != 0 ==> CandidatesAsWritten(fs, f, s, left, right)(n) == Candidate(s, left, right, n)
    ensures n == 0 && NumberAtEnd(fs, f, s) ==>
              CandidatesAsWritten(fs, f, s, left, right)(n) == NewFile(Trim(s.head) + s.tail)
    ensures n == 0 && !NumberAtEnd(fs, f, s) ==>
              CandidatesAsWritten(fs, f, s, left, right)(n) == Candidate(s, left, right, n)
  {
  }

  /** The `for` loop as written stops after `n` steps: the candidates for
      the first `n` values of `pos` exist and the next one does not. */
  predicate StopsAfter(existing: set<string>, cand: int -> string, start: Int32, n: nat)
  {
    && cand(PosAfter(start, n)) !in existing
    && forall m: nat :: m < n ==> cand(PosAfter(start, m)) in existing
  }

  /** The text of the candidate below a plain name "a ". */
  lemma PlainCandidate(p: int)
    ensures Candidate(Sections("a ", ""), "(", ")", p) == "a " + "(" + IntToString(p) + ")"
  {
    var digits := IntToString(p);
    forall i | 0 <= i < |digits| ensures digits[i] != Separator {
      if p >= 0 {
        assert IsDigit(digits[i]);
      } else if i > 0 {
        assert IsDigit(NatToString(-p)[i - 1]);
      }
    }
    var x := "a " + "(" + digits + ")" + "";
    assert x == "a " + "(" + digits + ")";
    NoDoubleSeparatorFree(x);
    assert x[|x| - 1] == ')';
  }

  /** Below the plain name "a ", the loop writes every number but 0 in
      parentheses after the name. */
  lemma PlainCandidateAsWritten(fs: FileSystem, f: File, p: int)
    requires p != 0
    ensures CandidatesAsWritten(fs, f, Sections("a ", ""), "(", ")")(p) == "a " + "(" + IntToString(p) + ")"
  {
    CandidatesAsWrittenAgree(fs, f, Sections("a ", ""), "(", ")", p);
    PlainCandidate(p);
  }

  /** A token that ends the path leaves nothing after it. */
  lemma SplitAtLastToken(fs: FileSystem, g: File, t: Token)
    requires t.start <= t.end == |g|
    ensures SplitAtFileNumber(fs, g, Some(t)) == Sections(g[..t.start], "")
  {
  }

  /** The file "a (d)" for a digit string `d`: its number is read from
      `d`, and its sections are "a " and nothing. */
  lemma PlainSections(fs: FileSystem, g: File, d: string)
    requires |d| >= 1 && AllDigits(d)
    requires g == "a " + "(" + d + ")" + "" && !fs.IsFile(g)
    ensures RegionStart(g) <= RegionEnd(fs, g)
    ensures CurrentFileNumber(fs, g, "(", ")") == Ok(ParseInt(d))
    ensures SplitAtFileNumber(fs, g, FileNumberMatch(fs, g, "(", ")").value) == Sections("a ", "")
  {
    PlainNameReads(fs, g, "a ", d);
    SplitAtLastToken(fs, g, Token(2, d, |g|));
    Regroup("a ", "(", d, ")", "");
    PrefixOfAppend("a ", "(" + d + ")" + "");
  }

  /** The file "a (2147483646)" holds the number `MaxInt - 1`, so the
      loop as written starts at `MaxInt`, and its sections are "a " and
      nothing. */
  lemma BelowMaxIntSections(fs: FileSystem, g: File, n: Int32)
    requires n == MaxInt - 1
    requires g == "a " + "(" + NatToString(n) + ")" && !fs.IsFile(g)
    ensures RegionStart(g) <= RegionEnd(fs, g)
    ensures SearchStartAsWritten(fs, g, "(", ")") == MaxInt
    ensures SplitAtFileNumber(fs, g, FileNumberMatch(fs, g, "(", ")").value) == Sections("a ", "")
  {
    ParseIntToString(n);
    PlainSections(fs, g, NatToString(n));
  }

  /** A negative number and a non-negative one print differently in
      parentheses after "a ". */
  lemma SignedTextsDiffer(p: int, q: int)
    requires p < 0 <= q
    ensures "a " + "(" + IntToString(p) + ")" != "a " + "(" + IntToString(q) + ")"
  {
    var x := IntToString(p);
    var y := IntToString(q);
    assert x[0] == '-' && IsDigit(y[0]);
    assert ("a " + "(" + x + ")")[3] == x[0];
    assert ("a " + "(" + y + ")")[3] == y[0];
  }

  /** When the candidate for `MaxInt` exists and the one for `MinInt` does
      not, the loop as written started at `MaxInt` stops after one step,
      at `MinInt`. */
  lemma StopsAtMinInt(existing: set<string>, cand: int -> string, top: Int32)
    requires top == MaxInt
    requires cand(top) in existing && cand(PosAfter(top, 1)) !in existing
    ensures PosAfter(top, 1) == MinInt
    ensures StopsAfter(existing, cand, top, 1)
  {
    assert PosAfter(top, 0) == top;
  }

  /** With only "a (2147483647)" existing, the text for `MaxInt` exists
      and the text for the wrapped counter does not. */
  lemma WrapTexts(existing: set<string>, top: Int32)
    requires top == MaxInt
    requires existing == {"a " + "(" + NatToString(top) + ")"}
    ensures PosAfter(top, 1) == MinInt
    ensures "a " + "(" + IntToString(top) + ")" in existing
    ensures "a " + "(" + IntToString(PosAfter(top, 1)) + ")" !in existing
  {
    PosAfterMaxInt(top);
    SignedTextsDiffer(PosAfter(top, 1), top);
  }

  /** One `pos++` from `MaxInt` wraps to `MinInt`. */
  lemma PosAfterMaxInt(top: Int32)
    requires top == MaxInt
    ensures PosAfter(top, 1) == MinInt
  {
    assert PosAfter(top, 0) == top;
  }

  /** Below the plain name "a ", with only the candidate for `MaxInt`
      existing, the loop as written started at `MaxInt` stops after one
      step, at the candidate for `MinInt`. */
  lemma PlainWrapStops(fs: FileSystem, f: File, top: Int32)
    requires top == MaxInt
    requires fs.existing == {"a " + "(" + NatToString(top) + ")"}
    ensures var bottom := PosAfter(top, 1);
            && StopsAfter(fs.existing, CandidatesAsWritten(fs, f, Sections("a ", ""), "(", ")"), top, 1)
            && bottom == MinInt
            && CandidatesAsWritten(fs, f, Sections("a ", ""), "(", ")")(bottom) == "a " + "(" + IntToString(bottom) + ")"
  {
    var cand := CandidatesAsWritten(fs, f, Sections("a ", ""), "(", ")");
    WrapTexts(fs.existing, top);
    PlainCandidateAsWritten(fs, f, top);
    PlainCandidateAsWritten(fs, f, PosAfter(top, 1));
    StopsAtMinInt(fs.existing, cand, top);
  }

  /** A file "a (2147483646)" next to an existing "a (2147483647)": the
      loop as written tries 2147483647, then `pos++` wraps around and the
      loop stops at "a (-2147483648)", whose number lies below the current
      one. */
  lemma PosWraps(fs: FileSystem, g: File, n: Int32)
    requires n == MaxInt - 1
    requires g == "a " + "(" + NatToString(n) + ")" && !fs.IsFile(g)
    requires fs.existing == {"a " + "(" + NatToString(n + 1) + ")"}
    ensures RegionStart(g) <= RegionEnd(fs, g)
    ensures SearchStartAsWritten(fs, g, "(", ")") == n + 1
    ensures var s := SplitAtFileNumber(fs, g, FileNumberMatch(fs, g, "(", ")").value);
            && StopsAfter(fs.existing, CandidatesAsWritten(fs, g, s, "(", ")"), n + 1, 1)
            && PosAfter(n + 1, 1) == MinInt < n
            && CandidatesAsWritten(fs, g, s, "(", ")")(PosAfter(n + 1, 1)) == "a " + "(" + IntToString(PosAfter(n + 1, 1)) + ")"
  {
    BelowMaxIntSections(fs, g, n);
    PlainWrapStops(fs, g, n + 1);
  }
}

=== FILE: file_wildcard.dfy ===
/** `FileWildcard`: a glob pattern cut down to its last name element, and
    the static helpers that read wildcards out of a string, clean a list of
    them up and print it back. The glob matching itself is not modelled. */
module FileWildcard {
  import opened Wrappers
  import opened JavaText
  import opened JavaFile
  import opened Sequences

  // ----- wildcards -----

  /** The text a wildcard keeps: a name, free of separators. */
  type Card = s: string | Separator !in s

  /** A `FileWildcard`, known by its card (`toString()`). The path matcher
      compiled from the card is not modelled. */
  datatype Wildcard = Wildcard(card: Card)

  /** A path without separators is already normalized and is its own name. */
  lemma PlainName(s: string)
    requires Separator !in s
    ensures NewFile(s) == s && Name(s) == s
  {
    NoDoubleSeparatorFree(s);
    assert LastIndexOf(s, Separator) == -1;
  }

  /** The constructor: the card is `new File(pattern).getName()`. */
  function MakeWildcard(pattern: string): (w: Wildcard)
    ensures |w.card| <= |NewFile(pattern)|
    ensures Separator !in pattern ==> w.card == pattern
  {
    var w := Wildcard(Name(NewFile(pattern)));
    assert Separator !in pattern ==> w.card == pattern by {
      if Separator !in pattern {
        PlainName(pattern);
      }
    }
    w
  }

  /** The card is the last component of the normalized pattern: below its
      parent directory, directly below the root, or the whole path. */
  lemma MakeWildcardLastComponent(pattern: string)
    ensures var f := NewFile(pattern); var c := MakeWildcard(pattern).card;
      && (Parent(f).None? ==> f == c || f == [Separator])
      && (Parent(f) == Some([Separator]) ==> f == [Separator] + c)
      && (Parent(f).Some? && Parent(f).value != [Separator] ==> f == Parent(f).value + [Separator] + c)
  {
    ParentNameSplit(NewFile(pattern));
  }

  /** A wildcard built from a card keeps that card: building is idempotent. */
  lemma MakeWildcardIdempotent(pattern: string)
    ensures MakeWildcard(MakeWildcard(pattern).card) == MakeWildcard(pattern)
  {
  }

  /** `equals`: two wildcards are equal when their cards, as files, are. */
  predicate Equals(a: Wildcard, b: Wildcard) {
    NewFile(a.card) == NewFile(b.card)
  }

  /** Since cards have no separators, `equals` is equality of cards. */
  lemma EqualsIsIdentity(a: Wildcard, b: Wildcard)
    ensures Equals(a, b) <==> a == b
  {
    PlainName(a.card);
    PlainName(b.card);
  }

  // ----- reading wildcards from a string -----

  /** The characters that end a wildcard outside quotation marks. */
  predicate IsCardSeparator(c: char) {
    c == ',' || c == ' ' || c == PathSeparator
  }

  /** A piece of the list, trimmed, if anything is left of it. */
  function Kept(piece: string): (r: seq<string>)
    ensures |r| <= 1
    ensures r == [] <==> Trim(piece) == []
    ensures r != [] ==> r[0] == Trim(piece)
  {
    var t := Trim(piece);
    if t == [] then [] else [t]
  }

  /** The wildcard texts read from the rest `t` of a list, the current
      unquoted wildcard having begun with `piece`. An unquoted wildcard
      ends at a ',', ' ' or ':'. A '"' starts a quoted wildcard that ends
      at the next '"', or runs to the end of the list when there is none;
      an unquoted piece in progress when a '"' comes is dropped. */
  function Lex(piece: string, t: string): seq<string>
    decreases |t|
  {
    if t == [] then Kept(piece)
    else if t[0] == '"' then
      match IndexOfFrom(t, '"', 1)
      case None => Kept(t[1..])
      case Some(q) => Kept(t[1..q]) + Lex([], t[q + 1..])
    else if IsCardSeparator(t[0]) then Kept(piece) + Lex([], t[1..])
    else Lex(piece + [t[0]], t[1..])
  }

  /** Every text read is non-blank and trimmed, and holds no quotation
      mark unless the unquoted piece it was begun with did. */
  lemma {:induction false} LexPlain(piece: string, t: string)
    ensures forall i :: 0 <= i < |Lex(piece, t)| ==> Lex(piece, t)[i] != [] && IsTrimmed(Lex(piece, t)[i])
    ensures '"' !in piece ==> forall i :: 0 <= i < |Lex(piece, t)| ==> '"' !in Lex(piece, t)[i]
    decreases |t|
  {
    if t == [] {
      TrimElements(piece);
    } else if t[0] == '"' {
      match IndexOfFrom(t, '"', 1)
      case None =>
        TrimElements(t[1..]);
        assert '"' !in t[1..] by {
          forall j | 0 <= j < |t| - 1 ensures t[1..][j] != '"' {
            assert t[1..][j] == t[j + 1];
          }
        }
      case Some(q) =>
        LexPlain([], t[q + 1..]);
        TrimElements(t[1..q]);
        assert '"' !in t[1..q] by {
          forall j | 0 <= j < q - 1 ensures t[1..q][j] != '"' {
            assert t[1..q][j] == t[j + 1];
          }
        }
    } else if IsCardSeparator(t[0]) {
      TrimElements(piece);
      LexPlain([], t[1..]);
    } else {
      LexPlain(piece + [t[0]], t[1..]);
    }
  }

  /** The wildcard texts of a whole list. */
  function Tokens(s: string): seq<string> {
    Lex([], s)
  }

  /** The wildcards made from a list of texts. */
  function Cards(ts: seq<string>): (r: seq<Wildcard>)
    ensures |r| == |ts|
  {
    if ts == [] then [] else [MakeWildcard(ts[0])] + Cards(ts[1..])
  }

  /** Each text becomes the wildcard at the same place. */
  lemma {:induction false} CardsIndex(ts: seq<string>)
    ensures forall i :: 0 <= i < |ts| ==> Cards(ts)[i] == MakeWildcard(ts[i])
  {
    if ts != [] {
      CardsIndex(ts[1..]);
      forall i | 0 < i < |ts| ensures Cards(ts)[i] == MakeWildcard(ts[i]) {
        assert Cards(ts)[i] == Cards(ts[1..])[i - 1];
      }
    }
  }

  lemma {:induction false} CardsAppend(a: seq<string>, b: seq<string>)
    ensures Cards(a + b) == Cards(a) + Cards(b)
  {
    if a != [] {
      assert (a + b)[1..] == a[1..] + b;
      CardsAppend(a[1..], b);
    } else {
      assert a + b == b;
    }
  }

  /** The wildcards made from one piece: none, or the trimmed piece. */
  function Emitted(piece: string): (r: seq<Wildcard>)
    ensures r == Cards(Kept(piece))
  {
    var t := Trim(piece);
    if t == [] then [] else [MakeWildcard(t)]
  }

  /** Emitting a piece turns its text into a wildcard. */
  lemma EmitCards(base: seq<Wildcard>, texts: seq<string>, piece: string)
    ensures (base + Cards(texts)) + Emitted(piece) == base + Cards(texts + Kept(piece))
  {
    CardsAppend(texts, Kept(piece));
    AppendAssociative(base, Cards(texts), Cards(Kept(piece)));
  }

  /** Reading on from a quotation mark at `pos` closed at `q`. */
  lemma LexAtClosedQuote(s: string, piece: string, pos: nat, q: nat)
    requires pos < |s| && s[pos] == '"' && IndexOfFrom(s, '"', pos + 1) == Some(q)
    ensures Lex(piece, s[pos..]) == Kept(s[pos + 1..q]) + Lex([], s[q + 1..])
  {
    var t := s[pos..];
    forall j | 1 <= j < q - pos ensures t[j] != '"' {
      assert t[j] == s[pos + j];
    }
    IndexOfFromFirst(t, '"', 1, q - pos);
    assert t[1..q - pos] == s[pos + 1..q];
    assert t[q - pos + 1..] == s[q + 1..];
  }

  /** Reading on from a quotation mark at `pos` never closed. */
  lemma LexAtUnclosedQuote(s: string, piece: string, pos: nat)
    requires pos < |s| && s[pos] == '"' && IndexOfFrom(s, '"', pos + 1).None?
    ensures Lex(piece, s[pos..]) == Kept(s[pos + 1..])
  {
    var t := s[pos..];
    assert t[1..] == s[pos + 1..];
    forall j | 1 <= j < |t| ensures t[j] != '"' {
      assert t[j] == s[pos + j];
    }
    IndexOfFromAbsent(t, '"', 1);
  }

  /** `Lex` on the rest of `s` from `pos`, the current piece having begun
      at `start`: the same reading, by positions in the whole list. */
  function LexFrom(s: string, start: nat, pos: nat): seq<string>
    requires start <= pos <= |s|
    decreases |s| - pos
  {
    if pos == |s| then Kept(s[start..pos])
    else if s[pos] == '"' then
      match IndexOfFrom(s, '"', pos + 1)
      case None => Kept(s[pos + 1..])
      case Some(q) => Kept(s[pos + 1..q]) + LexFrom(s, q + 1, q + 1)
    else if IsCardSeparator(s[pos]) then Kept(s[start..pos]) + LexFrom(s, pos + 1, pos + 1)
    else LexFrom(s, start, pos + 1)
  }

  lemma {:induction false} LexFromIsLex(s: string, start: nat, pos: nat)
    requires start <= pos <= |s|
    ensures LexFrom(s, start, pos) == Lex(s[start..pos], s[pos..])
    decreases |s| - pos
  {
    if pos == |s| {
      assert s[pos..] == [];
    } else if s[pos] == '"' {
      match IndexOfFrom(s, '"', pos + 1)
      case None =>
        LexAtUnclosedQuote(s, s[start..pos], pos);
      case Some(q) =>
        LexFromIsLex(s, q + 1, q + 1);
        LexFromAtClosedQuote(s, start, pos, q);
    } else if IsCardSeparator(s[pos]) {
      LexFromIsLex(s, pos + 1, pos + 1);
      LexFromAtSeparator(s, start, pos);
    } else {
      LexFromIsLex(s, start, pos + 1);
      LexFromAtOther(s, start, pos);
    }
  }

  /** The quotation-mark step of `LexFromIsLex`. */
  lemma LexFromAtClosedQuote(s: string, start: nat, pos: nat, q: nat)
    requires start <= pos < |s| && s[pos] == '"' && IndexOfFrom(s, '"', pos + 1) == Some(q)
    requires LexFrom(s, q + 1, q + 1) == Lex(s[q + 1..q + 1], s[q + 1..])
    ensures LexFrom(s, start, pos) == Lex(s[start..pos], s[pos..])
  {
    assert LexFrom(s, start, pos) == Kept(s[pos + 1..q]) + LexFrom(s, q + 1, q + 1);
    assert s[q + 1..q + 1] == [];
    LexAtClosedQuote(s, s[start..pos], pos, q);
  }

  /** The card-separator step of `LexFromIsLex`. */
  lemma LexFromAtSeparator(s: string, start: nat, pos: nat)
    requires start <= pos < |s| && s[pos] != '"' && IsCardSeparator(s[pos])
    requires LexFrom(s, pos + 1, pos + 1) == Lex(s[pos + 1..pos + 1], s[pos + 1..])
    ensures LexFrom(s, start, pos) == Lex(s[start..pos], s[pos..])
  {
    assert s[pos..][1..] == s[pos + 1..];
    assert s[pos + 1..pos + 1] == [];
  }

  /** The step of `LexFromIsLex` at any other character. */
  lemma LexFromAtOther(s: string, start: nat, pos: nat)
    requires start <= pos < |s| && s[pos] != '"' && !IsCardSeparator(s[pos])
    requires LexFrom(s, start, pos + 1) == Lex(s[start..pos + 1], s[pos + 1..])
    ensures LexFrom(s, start, pos) == Lex(s[start..pos], s[pos..])
  {
    assert s[pos..][1..] == s[pos + 1..];
    assert s[start..pos] + [s[pos..][0]] == s[start..pos + 1];
  }

  /** The state of the source's loop at `pos`: the texts read so far are
      `texts`, the current piece began at `start`, and what is still to be
      read completes `target`. */
  ghost predicate Reading(s: string, start: int, pos: int, texts: seq<string>, target: seq<string>) {
    0 <= start <= pos <= |s| && texts + LexFrom(s, start, pos) == target
  }

  /** One pass of the loop at a quotation mark that has a closing one at
      `q`: the quoted piece is emitted and reading resumes after `q`. */
  lemma {:induction false} QuotedStep(s: string, start: int, pos: int, q: nat, texts: seq<string>, target: seq<string>)
    requires Reading(s, start, pos, texts, target) && pos < |s|
    requires s[pos] == '"' && IndexOfFrom(s, '"', pos + 1) == Some(q)
    ensures Reading(s, q + 1, q + 1, texts + Kept(s[pos + 1..q]), target)
  {
    AppendAssociative(texts, Kept(s[pos + 1..q]), LexFrom(s, q + 1, q + 1));
  }

  /** One pass of the loop at a quotation mark without a closing one: the
      rest of the list is the last piece. */
  lemma {:induction false} UnclosedStep(s: string, start: int, pos: int, texts: seq<string>, target: seq<string>)
    requires Reading(s, start, pos, texts, target) && pos < |s|
    requires s[pos] == '"' && IndexOfFrom(s, '"', pos + 1).None?
    ensures texts + Kept(s[pos + 1..]) == target
  {
  }

  /** One pass of the loop at a card separator: the piece is emitted and
      a new one begins after the separator. */
  lemma {:induction false} SeparatorStep(s: string, start: int, pos: int, texts: seq<string>, target: seq<string>)
    requires Reading(s, start, pos, texts, target) && pos < |s|
    requires s[pos] != '"' && IsCardSeparator(s[pos])
    ensures Reading(s, pos + 1, pos + 1, texts + Kept(s[start..pos]), target)
  {
    AppendAssociative(texts, Kept(s[start..pos]), LexFrom(s, pos + 1, pos + 1));
  }

  /** One pass of the loop at any other character: the piece grows. */
  lemma {:induction false} OtherStep(s: string, start: int, pos: int, texts: seq<string>, target: seq<string>)
    requires Reading(s, start, pos, texts, target) && pos < |s|
    requires s[pos] != '"' && !IsCardSeparator(s[pos])
    ensures Reading(s, start, pos + 1, texts, target)
  {
  }

  /** The end of the list: what is left is the last piece. */
  lemma {:induction false} EndStep(s: string, start: int, pos: int, texts: seq<string>, target: seq<string>)
    requires Reading(s, start, pos, texts, target) && pos == |s|
    ensures texts + Kept(s[start..]) == target
  {
    assert s[start..pos] == s[start..];
  }

  /** The end of a wildcard at `pos` (the source's `if (split)` block
      without the `start = pos + 1`): the piece from `start`, trimmed, is
      added unless it is blank. The piece also joins the texts read so
      far, whose wildcards `r` holds after those of `base`. */
  method EmitPiece(s: string, start: int, pos: int, r: seq<Wildcard>,
                   ghost base: seq<Wildcard>, ghost texts: seq<string>)
      returns (r': seq<Wildcard>, ghost texts': seq<string>)
    requires 0 <= start <= pos < |s|
    requires r == base + Cards(texts)
    ensures r' == r + Emitted(s[start..pos])
    ensures r <= r' && |r'| <= |r| + 1
    ensures texts' == texts + Kept(s[start..pos]) && r' == base + Cards(texts')
  {
    r' := r;
    if pos > start && pos < |s| {
      var temp := Trim(s[start..pos]);
      if temp != [] {
        r' := r' + [MakeWildcard(temp)];
      }
    }
    EmitCards(base, texts, s[start..pos]);
    texts' := texts + Kept(s[start..pos]);
  }

  /** The source's handling of a quotation mark at `pos`: the piece starts
      after it and ends at the closing mark, or, without one, `pos'` is
      -1 and the rest of the list is the last piece. */
  method ReadQuoted(s: string, start: int, pos: int, ghost texts: seq<string>, ghost target: seq<string>)
      returns (start': int, pos': int)
    requires Reading(s, start, pos, texts, target) && pos < |s| && s[pos] == '"'
    ensures start' == pos + 1 && (pos' < 0 || start' <= pos' < |s|)
    ensures pos' >= 0 ==> Reading(s, pos' + 1, pos' + 1, texts + Kept(s[start'..pos']), target)
    ensures pos' < 0 ==> texts + Kept(s[start'..]) == target
  {
    ghost var closing := IndexOfFrom(s, '"', pos + 1);
    if closing.Some? {
      QuotedStep(s, start, pos, closing.value, texts, target);
    } else {
      UnclosedStep(s, start, pos, texts, target);
    }
    pos' := pos + 1;
    start' := pos';
    var found := IndexOfFrom(s, '"', pos');
    pos' := if found.Some? then found.value else -1;
  }

  /** One pass of the source's loop body at a quotation mark, the `pos++`
      of the loop header included: `split` is `pos >= 0`, and a negative
      `pos'` is the `break`, after which only the rest from `start'` is
      left. */
  method ReadAtQuote(s: string, start: int, pos: int, r: seq<Wildcard>,
                     ghost base: seq<Wildcard>, ghost texts: seq<string>, ghost target: seq<string>)
      returns (start': int, pos': int, r': seq<Wildcard>, ghost texts': seq<string>)
    requires Reading(s, start, pos, texts, target) && pos < |s| && s[pos] == '"'
    requires r == base + Cards(texts)
    ensures r' == base + Cards(texts')
    ensures pos' >= 0 ==> pos < pos' && Reading(s, start', pos', texts', target)
    ensures pos' < 0 ==> 0 <= start' <= |s| && texts' + Kept(s[start'..]) == target
  {
    start', pos' := ReadQuoted(s, start, pos, texts, target);
    if pos' >= 0 {
      r', texts' := EmitPiece(s, start', pos', r, base, texts);
      start' := pos' + 1;
      pos' := pos' + 1;
    } else {
      r', texts' := r, texts;
    }
  }

  /** One pass of the source's loop body at `pos`, the `pos++` of the loop
      header included. A negative `pos'` is the `break` at an unclosed
      quotation mark, after which only the rest from `start'` is left.
      The wildcards `r` are those of `base` followed by those of the texts
      read so far. */
  method ReadAt(s: string, start: int, pos: int, r: seq<Wildcard>,
                ghost base: seq<Wildcard>, ghost texts: seq<string>, ghost target: seq<string>)
      returns (start': int, pos': int, r': seq<Wildcard>, ghost texts': seq<string>)
    requires Reading(s, start, pos, texts, target) && pos < |s|
    requires r == base + Cards(texts)
    ensures r' == base + Cards(texts')
    ensures pos' >= 0 ==> pos < pos' && Reading(s, start', pos', texts', target)
    ensures pos' < 0 ==> 0 <= start' <= |s| && texts' + Kept(s[start'..]) == target
  {
    var character := s[pos];
    if character == '"' {
      start', pos', r', texts' := ReadAtQuote(s, start, pos, r, base, texts, target);
    } else if character == ',' || character == ' ' || character == PathSeparator {
      SeparatorStep(s, start, pos, texts, target);
      r', texts' := EmitPiece(s, start, pos, r, base, texts);
      start', pos' := pos + 1, pos + 1;
    } else {
      OtherStep(s, start, pos, texts, target);
      start', pos', r', texts' := start, pos + 1, r, texts;
    }
  }

  /** `getWildcardsFromString(cardList, wildcards)`: the index loop of the
      source, which appends the wildcards read from `cardList` to
      `wildcards` and leaves the elements already there in place. */
  method GetWildcardsFromString(cardList: string, wildcards: seq<Wildcard>) returns (r: seq<Wildcard>)
    ensures r == wildcards + Cards(Tokens(cardList))
  {
    ghost var target := Tokens(cardList);
    ghost var texts: seq<string> := [];
    r := wildcards;
    var start: int := 0;
    var pos: int := 0;
    assert cardList[0..0] == [] && cardList[0..] == cardList;
    LexFromIsLex(cardList, 0, 0);
    assert r == wildcards + Cards(texts);
    while pos < |cardList|
      invariant Reading(cardList, start, pos, texts, target)
      invariant r == wildcards + Cards(texts)
      decreases |cardList| - pos
    {
      start, pos, r, texts := ReadAt(cardList, start, pos, r, wildcards, texts, target);
      if pos < 0 {
        break;
      }
    }
    if pos >= 0 {
      EndStep(cardList, start, pos, texts, target);
    }
    EmitCards(wildcards, texts, cardList[start..]);
    if start < |cardList| {
      var temp := Trim(cardList[start..]);
      if temp != [] {
        r := r + [MakeWildcard(temp)];
      }
    }
  }

  /** The pieces of `s` between card separators, empty ones included. */
  function SplitCards(s: string): (r: seq<string>)
    ensures |r| >= 1
  {
    if s == [] then [[]]
    else
      var rest := SplitCards(s[1..]);
      if IsCardSeparator(s[0]) then [[]] + rest
      else [[s[0]] + rest[0]] + rest[1..]
  }

  /** The non-empty trimmed pieces of a list of pieces. */
  function KeptAll(pieces: seq<string>): seq<string> {
    if pieces == [] then [] else Kept(pieces[0]) + KeptAll(pieces[1..])
  }

  /** `piece` put in front of the first of `pieces`. */
  function Prepend(piece: string, pieces: seq<string>): seq<string>
    requires |pieces| >= 1
  {
    [piece + pieces[0]] + pieces[1..]
  }

  /** Without quotation marks, reading a list is splitting it at the card
      separators and keeping the non-blank trimmed pieces. */
  lemma {:induction false} LexUnquoted(piece: string, t: string)
    requires '"' !in t
    ensures Lex(piece, t) == KeptAll(Prepend(piece, SplitCards(t)))
    decreases |t|
  {
    if t == [] {
      assert piece + [] == piece;
    } else {
      var rest := SplitCards(t[1..]);
      if IsCardSeparator(t[0]) {
        assert Lex(piece, t) == KeptAll(Prepend(piece, SplitCards(t))) by {
          LexUnquoted([], t[1..]);
          assert [] + rest[0] == rest[0];
          assert Prepend([], rest) == rest;
          var p := Prepend(piece, SplitCards(t));
          assert piece + [] == piece;
          assert p[0] == piece && p[1..] == rest;
          assert KeptAll(p) == Kept(piece) + KeptAll(rest);
        }
      } else {
        assert Lex(piece, t) == KeptAll(Prepend(piece, SplitCards(t))) by {
          LexUnquoted(piece + [t[0]], t[1..]);
          assert piece + ([t[0]] + rest[0]) == piece + [t[0]] + rest[0];
        }
      }
    }
  }

  /** The same, for a whole list. */
  lemma TokensUnquoted(s: string)
    requires '"' !in s
    ensures Tokens(s) == KeptAll(SplitCards(s))
  {
    LexUnquoted([], s);
    var pieces := SplitCards(s);
    assert [] + pieces[0] == pieces[0];
    assert Prepend([], pieces) == pieces;
  }

  // ----- removing duplicates -----

  /** `removeDuplicateWildcards`: for each position, removes the last
      occurrence of its element until that is the position itself. For
      wildcards `equals` is `==` (`EqualsIsIdentity`); the method is stated
      for any element type, as `List.lastIndexOf` also finds `null`. */
  method RemoveDuplicateWildcards<T(==)>(wildcards: seq<T>) returns (w: seq<T>)
    ensures w == Dedup(wildcards)
  {
    w := wildcards;
    var pos := 0;
    while pos < |w|
      invariant 0 <= pos <= |w|
      invariant Dedup(wildcards) == w[..pos] + Dedup(w[pos..])
      decreases |w| - pos
    {
      var temp := w[pos];
      while LastIndex(w, temp) != pos
        invariant pos < |w| && w[pos] == temp
        invariant Dedup(wildcards) == w[..pos] + Dedup(w[pos..])
        decreases |w|
      {
        var last := LastIndex(w, temp);
        DedupRemoveLater(w, pos, last);
        w := RemoveAt(w, last);
      }
      DedupKeepsLast(w, pos);
      pos := pos + 1;
    }
    assert w[..pos] == w;
  }

  /** Once the element at `pos` has no later copy, `Dedup` keeps it and
      moves on. */
  lemma DedupKeepsLast<T>(w: seq<T>, pos: nat)
    requires pos < |w| && LastIndex(w, w[pos]) == pos
    ensures w[..pos] + Dedup(w[pos..]) == w[..pos + 1] + Dedup(w[pos + 1..])
  {
    var temp := w[pos];
    var rest := w[pos + 1..];
    LastIndexAbsentAfter(w, temp);
    WithoutAbsent(rest, temp);
    assert w[pos..][0] == temp && w[pos..][1..] == rest;
    assert Dedup(w[pos..]) == [temp] + Dedup(rest);
    assert w[..pos + 1] == w[..pos] + [temp];
    AppendAssociative(w[..pos], [temp], Dedup(rest));
  }

  /** Removing a later copy of the element at `pos` keeps the prefix and
      the `Dedup` of the rest. */
  lemma DedupRemoveLater<T>(w: seq<T>, pos: nat, last: nat)
    requires pos < last < |w| && w[last] == w[pos]
    ensures RemoveAt(w, last)[..pos] == w[..pos]
    ensures Dedup(RemoveAt(w, last)[pos..]) == Dedup(w[pos..])
  {
    var w' := RemoveAt(w, last);
    var temp := w[pos];
    assert w'[pos..][1..] == RemoveAt(w[pos + 1..], last - pos - 1);
    WithoutRemoveAt(w[pos + 1..], last - pos - 1, temp);
    assert w[pos..][1..] == w[pos + 1..];
  }

  // ----- printing a list -----

  /** One entry of the list `getWildcardList` builds: the quoted card,
      `File.pathSeparator` and a space. */
  function Entry(w: Wildcard): string {
    "\"" + w.card + "\"" + [PathSeparator] + " "
  }

  /** The entries of `ws`, one after the other. */
  function Entries(ws: seq<Wildcard>): string {
    if ws == [] then "" else Entry(ws[0]) + Entries(ws[1..])
  }

  /** The quoted cards joined by `File.pathSeparator` and a space, with no
      separator after the last. */
  function JoinCards(ws: seq<Wildcard>): string {
    if ws == [] then ""
    else if |ws| == 1 then "\"" + ws[0].card + "\""
    else "\"" + ws[0].card + "\"" + [PathSeparator] + " " + JoinCards(ws[1..])
  }

  lemma {:induction false} EntriesSnoc(ws: seq<Wildcard>, w: Wildcard)
    ensures Entries(ws + [w]) == Entries(ws) + Entry(w)
  {
    if ws != [] {
      assert (ws + [w])[1..] == ws[1..] + [w];
      EntriesSnoc(ws[1..], w);
    } else {
      assert Entries([w]) == Entry(w) + "";
    }
  }

  /** The entries are the joined list followed by one separator and space. */
  lemma {:induction false} EntriesJoin(ws: seq<Wildcard>)
    requires ws != []
    ensures Entries(ws) == JoinCards(ws) + [PathSeparator] + " "
  {
    if |ws| > 1 {
      EntriesJoin(ws[1..]);
    }
  }

  /** `getWildcardList`: the duplicates are removed first, then the list is
      printed, and the separator after the last entry cut off again. The
      caller's list is left deduplicated, which `ws` returns. */
  method GetWildcardList(wildcards: seq<Wildcard>) returns (ws: seq<Wildcard>, r: string)
    ensures ws == Dedup(wildcards)
    ensures r == JoinCards(ws)
  {
    ws := RemoveDuplicateWildcards(wildcards);
    if |ws| == 0 {
      return ws, "";
    }
    var paths := "";
    var i := 0;
    while i < |ws|
      invariant 0 <= i <= |ws|
      invariant paths == Entries(ws[..i])
    {
      EntriesSnoc(ws[..i], ws[i]);
      assert ws[..i + 1] == ws[..i] + [ws[i]];
      paths := paths + Entry(ws[i]);
      i := i + 1;
    }
    assert ws[..i] == ws;
    EntriesJoin(ws);
    r := paths[..|paths| - 2];
    assert r == JoinCards(ws);
  }

  /** A card that reads back as itself from a printed list. */
  predicate IsPlainCard(c: string) {
    c != [] && IsTrimmed(c) && '"' !in c
  }

  /** A quoted card is read as that card. */
  lemma LexQuoted(c: string, rest: string)
    requires IsPlainCard(c)
    ensures Lex([], "\"" + c + "\"" + rest) == [c] + Lex([], rest)
  {
    var t := "\"" + c + "\"" + rest;
    forall j | 1 <= j < |c| + 1 ensures t[j] != '"' {
      assert t[j] == c[j - 1];
    }
    IndexOfFromFirst(t, '"', 1, |c| + 1);
    assert t[1..|c| + 1] == c;
    assert t[|c| + 2..] == rest;
  }

  /** The separator and space between entries are skipped. */
  lemma LexSeparator(rest: string)
    ensures Lex([], [PathSeparator] + " " + rest) == Lex([], rest)
  {
    var t := [PathSeparator] + " " + rest;
    assert t[1..] == " " + rest;
    assert t[1..][1..] == rest;
  }

  /** A quoted card followed by the separator and space is read as that
      card, and reading goes on after them. */
  lemma LexEntry(c: string, rest: string)
    requires IsPlainCard(c)
    ensures Lex([], "\"" + c + "\"" + [PathSeparator] + " " + rest) == [c] + Lex([], rest)
  {
    var tail := [PathSeparator] + " " + rest;
    AppendAssociative3("\"" + c + "\"", [PathSeparator], " ", rest);
    LexQuoted(c, tail);
    LexSeparator(rest);
  }

  /** Reading a printed list gives back its cards. */
  lemma {:induction false} TokensOfJoin(ws: seq<Wildcard>)
    requires forall w :: w in ws ==> IsPlainCard(w.card)
    ensures Cards(Tokens(JoinCards(ws))) == ws
  {
    if ws != [] {
      var c := ws[0].card;
      assert IsPlainCard(c) by { assert ws[0] in ws; }
      if |ws| == 1 {
        LexQuoted(c, "");
        assert "\"" + c + "\"" + "" == "\"" + c + "\"";
      } else {
        LexEntry(c, JoinCards(ws[1..]));
        assert forall w :: w in ws[1..] ==> w in ws;
        TokensOfJoin(ws[1..]);
        CardsAppend([c], Tokens(JoinCards(ws[1..])));
        HeadTail(ws);
      }
    }
  }

  /** Printing a list and reading it back gives the list without its
      duplicates, for cards that survive quoting and trimming. */
  lemma WildcardListRoundTrip(ws: seq<Wildcard>)
    requires forall w :: w in ws ==> IsPlainCard(w.card)
    ensures Cards(Tokens(JoinCards(Dedup(ws)))) == Dedup(ws)
  {
    DedupElements(ws);
    TokensOfJoin(Dedup(ws));
  }

  // ----- extension wildcards -----

  /** The form `getExtensionWildcards` gives every card. */
  predicate IsExtensionCard(c: string) {
    c == "*" || StartsWith(c, "*.")
  }

  /** The card `getExtensionWildcards` makes of a non-blank card: "*" stays,
      a leading '.' gets a '*' in front, and anything not yet starting with
      "*." gets "*." in front. */
  function ExtensionPattern(t: string): (r: string)
    ensures IsExtensionCard(r)
    ensures r == t || r == "*" + t || r == "*." + t
    ensures t == "*" || StartsWith(t, "*.") ==> r == t
    ensures StartsWith(t, ".") ==> r == "*" + t
    ensures t != "*" && !StartsWith(t, ".") && !StartsWith(t, "*.") ==> r == "*." + t
    ensures Separator !in t ==> Separator !in r
  {
    if t == "*" then
      assert !StartsWith(t, ".") by { assert t[0] == '*'; }
      t
    else
      assert StartsWith(t, "*.") ==> !StartsWith(t, ".") by {
        if StartsWith(t, "*.") { assert t[0] == '*'; }
      }
      var u := if StartsWith(t, ".") then "*" + t else t;
      if StartsWith(u, "*.") then u else "*." + u
  }

  /** The patterns `ExtensionPattern` leaves alone are exactly the ones it
      produces. */
  lemma ExtensionPatternFixed(t: string)
    ensures ExtensionPattern(t) == t <==> IsExtensionCard(t)
  {
    var r := ExtensionPattern(t);
    if t == "*" {
    } else if StartsWith(t, "*.") {
      assert !StartsWith(t, ".") by { assert t[0] == '*'; }
      assert r == t;
    } else if StartsWith(t, ".") {
      assert r == "*" + t;
    } else {
      assert r == "*." + t;
    }
  }

  lemma ExtensionPatternIdempotent(t: string)
    ensures ExtensionPattern(ExtensionPattern(t)) == ExtensionPattern(t)
  {
    ExtensionPatternFixed(ExtensionPattern(t));
  }

  /** The wildcard one entry of the input becomes, if any: `null` and blank
      cards are skipped. */
  function ExtensionEntry(e: Option<Wildcard>): (r: seq<Wildcard>)
    ensures |r| <= 1
    ensures r == [] <==> e.None? || IsBlank(e.value.card)
    ensures r != [] ==> r[0].card == ExtensionPattern(e.value.card)
  {
    match e
    case None => []
    case Some(w) =>
      if IsBlank(w.card) then [] else [Wildcard(ExtensionPattern(w.card))]
  }

  /** The pattern has no separator, so the wildcard the source builds from
      it with the constructor keeps it whole. */
  lemma ExtensionEntryBuilt(e: Option<Wildcard>)
    requires e.Some? && !IsBlank(e.value.card)
    ensures ExtensionEntry(e) == [MakeWildcard(ExtensionPattern(e.value.card))]
  {
    var t := ExtensionPattern(e.value.card);
    assert Separator !in t;
  }

  /** `getExtensionWildcards`, as a function of its input list. */
  function ExtensionWildcards(ws: seq<Option<Wildcard>>): (r: seq<Wildcard>)
    ensures |r| <= |ws|
  {
    if ws == [] then [] else ExtensionWildcards(ws[..|ws| - 1]) + ExtensionEntry(ws[|ws| - 1])
  }

  /** Every card produced is "*" or starts with "*.". */
  lemma {:induction false} ExtensionWildcardsShape(ws: seq<Option<Wildcard>>)
    ensures forall i :: 0 <= i < |ExtensionWildcards(ws)| ==> IsExtensionCard(ExtensionWildcards(ws)[i].card)
  {
    if ws != [] {
      ExtensionWildcardsShape(ws[..|ws| - 1]);
      var init: seq<Wildcard> := ExtensionWildcards(ws[..|ws| - 1]);
      var last: seq<Wildcard> := ExtensionEntry(ws[|ws| - 1]);
      forall i | 0 <= i < |init + last|
        ensures IsExtensionCard((init + last)[i].card)
      {
        if i < |init| {
          assert (init + last)[i] == init[i];
        } else {
          assert (init + last)[i] == last[i - |init|];
        }
      }
    }
  }

  /** The entries are handled one by one, in order. */
  lemma {:induction false} ExtensionWildcardsAppend(a: seq<Option<Wildcard>>, b: seq<Option<Wildcard>>)
    ensures ExtensionWildcards(a + b) == ExtensionWildcards(a) + ExtensionWildcards(b)
    decreases |b|
  {
    if b == [] {
      assert a + b == a;
    } else {
      var init := b[..|b| - 1];
      assert (a + b)[..|a + b| - 1] == a + init;
      assert (a + b)[|a + b| - 1] == b[|b| - 1];
      ExtensionWildcardsAppend(a, init);
      AppendAssociative(ExtensionWildcards(a), ExtensionWildcards(init), ExtensionEntry(b[|b| - 1]));
    }
  }

  /** `getExtensionWildcards`: the for-each loop of the source. */
  method GetExtensionWildcards(wildcards: seq<Option<Wildcard>>) returns (arr: seq<Wildcard>)
    ensures arr == ExtensionWildcards(wildcards)
  {
    arr := [];
    for i := 0 to |wildcards|
      invariant arr == ExtensionWildcards(wildcards[..i])
    {
      assert wildcards[..i + 1][..i] == wildcards[..i];
      var temp := wildcards[i];
      if temp.None? {
        continue;
      }
      var t := temp.value.card;
      if IsBlank(t) {
        continue;
      } else if t != "*" {
        if StartsWith(t, ".") {
          t := "*" + t;
        }
        if !StartsWith(t, "*.") {
          t := "*." + t;
        }
      }
      ExtensionEntryBuilt(temp);
      arr := arr + [MakeWildcard(t)];
    }
    assert wildcards[..|wildcards|] == wildcards;
  }

  /** The wildcards of a list, as a list that may hold `null`. */
  function Present(ws: seq<Wildcard>): (r: seq<Option<Wildcard>>)
    ensures |r| == |ws| && forall i :: 0 <= i < |ws| ==> r[i] == Some(ws[i])
  {
    seq(|ws|, i requires 0 <= i < |ws| => Some(ws[i]))
  }

  lemma FormattedEntry(w: Wildcard)
    requires IsExtensionCard(w.card)
    ensures ExtensionEntry(Some(w)) == [w]
  {
    ExtensionPatternFixed(w.card);
    assert !IsBlank(w.card) by {
      assert w.card[0] == '*';
    }
  }

  /** Wildcards that are already formatted pass through unchanged. */
  lemma {:induction false} ExtensionWildcardsOfFormatted(xs: seq<Wildcard>)
    requires forall i :: 0 <= i < |xs| ==> IsExtensionCard(xs[i].card)
    ensures ExtensionWildcards(Present(xs)) == xs
  {
    if xs != [] {
      var p := Present(xs);
      var init := xs[..|xs| - 1];
      var last := xs[|xs| - 1];
      assert p[..|p| - 1] == Present(init);
      ExtensionWildcardsOfFormatted(init);
      FormattedEntry(last);
      assert xs == init + [last];
    }
  }

  /** Formatting an already formatted list changes nothing. */
  lemma ExtensionWildcardsIdempotent(ws: seq<Option<Wildcard>>)
    ensures ExtensionWildcards(Present(ExtensionWildcards(ws))) == ExtensionWildcards(ws)
  {
    ExtensionWildcardsShape(ws);
    ExtensionWildcardsOfFormatted(ExtensionWildcards(ws));
  }
}

=== FILE: files_extended.dfy ===
/** `FilesExtended`: quotation stripping, file extensions, and the engine
    that reads, rewrites and advances the bracketed number in a file name
    ("report (2).txt"). Whether a path is a regular file and whether it
    exists are facts of the filesystem, passed in as a `FileSystem`. */
module FilesExtended {
  import opened Wrappers
  import opened JavaText
  import opened JavaFile
  import opened FileNumberPattern

  /** The filesystem as the utilities observe it: the paths for which
      `File.isFile()` holds and those for which `File.exists()` holds. */
  datatype FileSystem = FileSystem(regularFiles: set<string>, existing: set<string>)
  {
    predicate IsFile(f: string) { f in regularFiles }
    predicate Exists(f: string) { f in existing }
  }

  // ----- quotation marks -----

  /** `removeQuotations(String)`: the trimmed text after the first quote
      and before the last quote that follows it. */
  function RemoveQuotations(s: string): (r: string)
    ensures IsBlank(s) ==> r == ""
    ensures !IsBlank(s) && '"' !in s ==> r == Trim(s)
    ensures IsTrimmed(r)
  {
    if IsBlank(s) then ""
    else
      var a := match IndexOfFrom(s, '"', 0)
        case Some(i) => s[i + 1..]
        case None => s;
      var q := LastIndexOf(a, '"');
      var b := if q >= 0 then a[..q] else a;
      Trim(b)
  }

  /** `removeQuotations(File)`. */
  function RemoveQuotationsFile(f: File): (r: File)
    ensures r == NewFile(RemoveQuotations(f))
  {
    NewFile(RemoveQuotations(f))
  }

  /** Text between the first and the last quotation mark survives, trimmed. */
  lemma RemoveQuotationsQuoted(p: string, m: string, q: string)
    requires '"' !in p && '"' !in q
    ensures RemoveQuotations(p + ['"'] + m + ['"'] + q) == Trim(m)
  {
    var s := p + ['"'] + m + ['"'] + q;
    assert s[|p|] == '"';
    assert !IsBlank(s) by { assert !IsWhitespace(s[|p|]); }
    assert forall j :: 0 <= j < |p| ==> s[j] != '"' by {
      forall j | 0 <= j < |p| ensures s[j] != '"' {
        assert s[j] == p[j];
      }
    }
    IndexOfFromFirst(s, '"', 0, |p|);
    var a := s[|p| + 1..];
    assert a == m + ['"'] + q;
    assert LastIndexOf(a, '"') == |m| by {
      LastIndexOfAppend(m + ['"'], q, '"');
      assert (m + ['"'])[|m|] == '"';
    }
    assert a[..|m|] == m;
  }

  /** A single quotation mark: everything after it survives, trimmed. */
  lemma RemoveQuotationsSingle(p: string, q: string)
    requires '"' !in p && '"' !in q
    ensures RemoveQuotations(p + ['"'] + q) == Trim(q)
  {
    var s := p + ['"'] + q;
    assert s[|p|] == '"';
    assert !IsBlank(s) by { assert !IsWhitespace(s[|p|]); }
    assert forall j :: 0 <= j < |p| ==> s[j] != '"' by {
      forall j | 0 <= j < |p| ensures s[j] != '"' {
        assert s[j] == p[j];
      }
    }
    IndexOfFromFirst(s, '"', 0, |p|);
    assert s[|p| + 1..] == q;
    assert LastIndexOf(q, '"') == -1;
  }

  // ----- extensions -----

  /** `getFileExtension(File)`: the text after the last '.' of the trimmed
      name, and nothing for a path that is not a regular file. Since the
      extension holds no '.', the '.' in front of it is the last one. */
  function FileExtension(fs: FileSystem, f: File): (ext: string)
    ensures !fs.IsFile(f) || '.' !in Trim(Name(f)) ==> ext == ""
    ensures (fs.IsFile(f) && '.' in Trim(Name(f))) || ext != "" ==>
              var t := Trim(Name(f));
              && |ext| < |t|
              && t[|t| - |ext| - 1] == '.' && t[|t| - |ext|..] == ext
    ensures '.' !in ext && Separator !in ext
  {
    if !fs.IsFile(f) then ""
    else
      var name := Trim(Name(f));
      if name == [] then ""
      else
        var k := LastIndexOf(name, '.');
        if k >= 0 then
          var ext := name[k + 1..];
          ExtensionOfName(Name(f), k);
          ext
        else
          assert '.' !in name;
          ""
  }

  /** The extension is what follows the last '.' of the trimmed name. */
  lemma FileExtensionAfterLastDot(fs: FileSystem, f: File)
    ensures var t := Trim(Name(f)); var k := LastIndexOf(t, '.');
            fs.IsFile(f) && k >= 0 ==> FileExtension(fs, f) == t[k + 1..]
  {
    var t := Trim(Name(f));
    var k := LastIndexOf(t, '.');
    if fs.IsFile(f) && k >= 0 {
      var ext := FileExtension(fs, f);
      var j := |t| - |ext| - 1;
      assert t[j] == '.';
      assert ext == t[j + 1..];
    }
  }

  /** What follows the last '.' of a trimmed name: no '.', no separator,
      and exactly the end of the name. */
  lemma ExtensionOfName(n: string, k: int)
    requires Separator !in n
    requires 0 <= k && k == LastIndexOf(Trim(n), '.')
    ensures var t := Trim(n); var ext := t[k + 1..];
      && |ext| < |t| && t[|t| - |ext| - 1] == '.' && t[|t| - |ext|..] == ext
      && '.' !in ext && Separator !in ext
  {
    var t := Trim(n);
    var ext := t[k + 1..];
    assert |t| - |ext| == k + 1;
    TrimElements(n);
    forall c | c in ext ensures c in t && c != '.' {
      var i :| 0 <= i < |ext| && ext[i] == c;
      assert t[k + 1 + i] == c;
    }
  }

  /** `getFileExtension(String)`. */
  function FileExtensionOfText(fs: FileSystem, s: string): (ext: string)
    ensures IsBlank(s) ==> ext == ""
    ensures !IsBlank(s) ==> ext == FileExtension(fs, NewFile(s))
    ensures '.' !in ext && Separator !in ext
  {
    if IsBlank(s) then "" else FileExtension(fs, NewFile(s))
  }

  /** The extension and its '.' fit inside the path. */
  lemma ExtensionFits(fs: FileSystem, f: File)
    ensures FileExtension(fs, f) == "" || |FileExtension(fs, f)| + 1 <= |f|
  {
    assert |Trim(Name(f))| <= |Name(f)| <= |f|;
  }

  /** `removeFileExtension(File)`: the path without ".ext". */
  function RemoveFileExtension(fs: FileSystem, f: File): (r: string)
    ensures |r| <= |f| && r == f[..|r|]
    ensures IsBlank(FileExtension(fs, f)) ==> r == f
    ensures !IsBlank(FileExtension(fs, f)) ==> |r| + |FileExtension(fs, f)| + 1 == |f|
  {
    var ext := FileExtension(fs, f);
    if IsBlank(ext) then f
    else
      ExtensionFits(fs, f);
      f[..|f| - |ext| - 1]
  }

  /** `removeFileExtension(String)`. */
  function RemoveFileExtensionOfText(fs: FileSystem, s: string): (r: string)
    ensures IsBlank(s) ==> r == ""
    ensures !IsBlank(s) ==> |r| <= |NewFile(s)| && r == NewFile(s)[..|r|]
    ensures !IsBlank(s) ==> r == RemoveFileExtension(fs, NewFile(s))
  {
    if IsBlank(s) then "" else RemoveFileExtension(fs, NewFile(s))
  }

  // ----- the file number -----

  /** The start of the matcher's region: one past the parent's length. */
  function RegionStart(f: File): nat
  {
    match Parent(f)
    case Some(p) => |p| + 1
    case None => 0
  }

  /** Directly below the root the parent is the root itself, so the region
      starts one character into the name. */
  lemma RegionStartBelowRoot(n: string)
    requires Separator !in n && n != []
    ensures Normalized([Separator] + n) && RegionStart([Separator] + n) == 2
  {
    NormalizedAppend([Separator], n);
    LastIndexOfAppend([Separator], n, Separator);
    ParentAtLastSeparator([Separator] + n);
  }

  /** The end of the matcher's region: where the extension begins. */
  function RegionEnd(fs: FileSystem, f: File): (hi: nat)
    ensures hi <= |f|
  {
    |RemoveFileExtension(fs, f)|
  }

  /** `getFileNumberMatcher` followed by one `find()`: the first token in
      the region, or `IndexOutOfBounds` when `Matcher.region` rejects a
      start beyond the end. */
  function FileNumberMatch(fs: FileSystem, f: File, left: string, right: string): (r: Result<Option<Token>, JavaError>)
    requires Quotable(left) && Quotable(right)
    ensures r.Err? <==> RegionStart(f) > RegionEnd(fs, f)
    ensures r.Err? ==> r.error == IndexOutOfBounds
    ensures r.Ok? && r.value.Some? ==>
              IsFirstMatch(f, left, right, RegionStart(f), RegionEnd(fs, f), r.value.value)
    ensures r.Ok? ==> (r.value.None? <==> NoMatch(f, left, right, RegionStart(f), RegionEnd(fs, f)))
  {
    var lo := RegionStart(f);
    var hi := RegionEnd(fs, f);
    if lo > hi then Err(IndexOutOfBounds)
    else Ok(FindToken(f, left, right, lo, hi))
  }

  /** The number `getCurrentFileNumber(Matcher, ...)` reads from a match:
      `None` without a match, or when `Integer.parseInt` overflows. */
  function TokenValue(m: Option<Token>): (r: Option<Int32>)
    ensures m.None? ==> r.None?
    ensures m.Some? ==> r == ParseInt(m.value.digits)
  {
    match m
    case None => None
    case Some(t) => ParseInt(t.digits)
  }

  /** `getCurrentFileNumber(File, left, right)`: the value of the first
      `left digits right` lying wholly inside the region. */
  function CurrentFileNumber(fs: FileSystem, f: File, left: string, right: string): (r: Result<Option<Int32>, JavaError>)
    requires Quotable(left) && Quotable(right)
    ensures r.Err? <==> RegionStart(f) > RegionEnd(fs, f)
    ensures r.Err? ==> r.error == IndexOutOfBounds
    ensures r.Ok? && NoMatch(f, left, right, RegionStart(f), RegionEnd(fs, f)) ==> r.value.None?
  {
    match FileNumberMatch(fs, f, left, right)
    case Err(e) => Err(e)
    case Ok(m) => Ok(TokenValue(m))
  }

  /** The number read is the value of the first match, whichever way that
      match is described. */
  lemma CurrentFileNumberOfFirstMatch(fs: FileSystem, f: File, left: string, right: string, t: Token)
    requires Quotable(left) && Quotable(right)
    requires IsFirstMatch(f, left, right, RegionStart(f), RegionEnd(fs, f), t)
    ensures CurrentFileNumber(fs, f, left, right) == Ok(ParseInt(t.digits))
  {
    var m := FileNumberMatch(fs, f, left, right);
    assert m.Ok? && m.value.Some?;
    FirstMatchUnique(f, left, right, RegionStart(f), RegionEnd(fs, f), m.value.value, t);
  }

  /** `getCurrentFileNumber(File)`: the number in parentheses. */
  function CurrentFileNumberInParentheses(fs: FileSystem, f: File): (r: Result<Option<Int32>, JavaError>)
    ensures r == CurrentFileNumber(fs, f, "(", ")")
  {
    CurrentFileNumber(fs, f, "(", ")")
  }

  /** The two strings `splitAtFileNumber` returns. */
  datatype Sections = Sections(head: string, tail: string)

  /** The text `splitAtFileNumber` cuts off when there is no token:
      ".ext", or the blank extension itself. */
  function ExtensionTail(fs: FileSystem, f: File): (tail: string)
    ensures |tail| <= |f|
    ensures !IsBlank(FileExtension(fs, f)) ==> tail == "." + FileExtension(fs, f)
    ensures IsBlank(FileExtension(fs, f)) ==> tail == FileExtension(fs, f)
  {
    var ext := FileExtension(fs, f);
    ExtensionFits(fs, f);
    if !IsBlank(ext) then "." + ext else ext
  }

  /** `splitAtFileNumber`: around the token if there is one, otherwise at
      the extension, with a space added to a head that is more than the
      parent directory. */
  function SplitAtFileNumber(fs: FileSystem, f: File, m: Option<Token>): (r: Sections)
    requires m.Some? ==> m.value.start <= m.value.end <= |f|
    ensures m.Some? ==> |r.head| == m.value.start && r.head + f[m.value.start..m.value.end] + r.tail == f
    ensures m.None? ==> r.tail == ExtensionTail(fs, f)
    ensures m.None? ==>
              var rest := f[..|f| - |r.tail|];
              r.head == (if IsBlank(rest) || rest == ParentText(f) + [Separator] then rest else rest + " ")
  {
    match m
    case Some(t) =>
      assert f == f[..t.start] + f[t.start..t.end] + f[t.end..];
      Sections(f[..t.start], f[t.end..])
    case None =>
      var tail := ExtensionTail(fs, f);
      var rest := f[..|f| - |tail|];
      var head := if IsBlank(rest) || rest == ParentText(f) + [Separator] then rest else rest + " ";
      Sections(head, tail)
  }

  /** The head ends in a space and the tail is exactly ".ext": the number
      then sits at the end of the name, after a space. */
  predicate NumberAtEnd(fs: FileSystem, f: File, s: Sections)
  {
    && !IsBlank(s.head)
    && s.head != ParentText(f) + [Separator]
    && s.head[|s.head| - 1] == ' '
    && s.tail == "." + FileExtension(fs, f)
  }

  /** `changeFileNumber(File, String[], left, right, num)`: writes
      `left num right` between the sections, except that 0 drops a number
      that sat at the end of the name after a space. */
  function JoinNumber(fs: FileSystem, f: File, s: Sections, left: string, right: string, num: int): (r: string)
    ensures num == 0 && NumberAtEnd(fs, f, s) ==> r == Trim(s.head) + s.tail
    ensures num != 0 || !NumberAtEnd(fs, f, s) ==> r == s.head + left + IntToString(num) + right + s.tail
  {
    if num == 0 && !IsBlank(s.head) && s.head != ParentText(f) + [Separator]
       && s.head[|s.head| - 1] == ' ' && s.tail == "." + FileExtension(fs, f)
    then Trim(s.head) + s.tail
    else s.head + left + IntToString(num) + right + s.tail
  }

  /** `changeFileNumber(File, left, right, num)`. */
  function ChangeFileNumber(fs: FileSystem, f: File, left: string, right: string, num: Int32): (r: Result<File, JavaError>)
    requires Quotable(left) && Quotable(right)
    ensures num < 0 <==> r == Err(IllegalArgument)
    ensures num >= 0 && IsBlank(Name(f)) ==> r == Ok(f)
    ensures num >= 0 && !IsBlank(Name(f)) ==>
              (r.Err? <==> RegionStart(f) > RegionEnd(fs, f))
    ensures r.Ok? && CurrentFileNumber(fs, f, left, right) == Ok(Some(num)) ==> r == Ok(f)
    ensures num == 0 && CurrentFileNumber(fs, f, left, right) == Ok(None) ==> r == Ok(f)
  {
    if num < 0 then Err(IllegalArgument)
    else if IsBlank(Name(f)) then Ok(f)
    else match FileNumberMatch(fs, f, left, right)
      case Err(e) => Err(e)
      case Ok(m) =>
        var oldNum := TokenValue(m);
        if (oldNum.None? && num == 0) || oldNum == Some(num) then Ok(f)
        else Ok(NewFile(JoinNumber(fs, f, SplitAtFileNumber(fs, f, m), left, right, num)))
  }

  /** `changeFileNumber(File, num)`: the number in parentheses. */
  function ChangeFileNumberInParentheses(fs: FileSystem, f: File, num: Int32): (r: Result<File, JavaError>)
    ensures r == ChangeFileNumber(fs, f, "(", ")", num)
  {
    ChangeFileNumber(fs, f, "(", ")", num)
  }

  /** The candidate `getNextAvailableFilePath` builds for number `p`. */
  function Candidate(s: Sections, left: string, right: string, p: int): File
  {
    NewFile(s.head + left + IntToString(p) + right + s.tail)
  }

  /** The first number the search tries: one past the current number, or 1. */
  function SearchStart(fs: FileSystem, f: File, left: string, right: string): (n: nat)
    requires Quotable(left) && Quotable(right)
    requires RegionStart(f) <= RegionEnd(fs, f)
    ensures n >= 1
    ensures CurrentFileNumber(fs, f, left, right).value.Some? ==>
              n == CurrentFileNumber(fs, f, left, right).value.value + 1
    ensures CurrentFileNumber(fs, f, left, right).value.None? ==> n == 1
  {
    match CurrentFileNumber(fs, f, left, right).value
    case Some(v) => v + 1
    case None => 1
  }

  /** A bound on the length of every path in a finite set. */
  lemma LengthBound(paths: set<string>) returns (bound: nat)
    ensures forall p :: p in paths ==> |p| <= bound
  {
    if paths == {} {
      bound := 0;
    } else {
      var x :| x in paths;
      var rest := LengthBound(paths - {x});
      bound := if |x| > rest then |x| else rest;
    }
  }

  /** Candidates for numbers of `k + 1` or more digits are longer than `k`. */
  lemma CandidateLength(s: Sections, left: string, right: string, p: nat, k: nat)
    requires p >= Pow10(k)
    ensures |Candidate(s, left, right, p)| > k
  {
    var digits := NatToString(p);
    NatToStringLength(p, k);
    assert Separator !in digits by {
      forall i | 0 <= i < |digits| ensures digits[i] != Separator {
        assert IsDigit(digits[i]);
      }
    }
    NonSeparatorCountFree(digits);
    var text := s.head + left + IntToString(p) + right + s.tail;
    assert text == (s.head + left) + digits + (right + s.tail);
    NonSeparatorCountAppend(s.head + left, digits);
    NonSeparatorCountAppend((s.head + left) + digits, right + s.tail);
  }

  /** `p` is the least number from `start` on whose candidate is not in
      `existing`. */
  predicate IsFirstFree(existing: set<string>, cand: nat -> string, start: nat, p: nat)
  {
    && start <= p
    && cand(p) !in existing
    && forall q :: start <= q < p ==> cand(q) in existing
  }

  /** The `for` loop of `getNextAvailableFilePath`: tries `start`,
      `start + 1`, ... until a candidate is not in `existing`. It stops
      because candidates grow with the number of digits. */
  method SearchFree(existing: set<string>, cand: nat -> string, start: nat) returns (p: nat, temp: string)
    requires forall n: nat, k: nat :: n >= Pow10(k) ==> |cand(n)| > k
    ensures IsFirstFree(existing, cand, start, p) && temp == cand(p)
  {
    var k := LengthBound(existing);
    var limit := if start > Pow10(k) then start else Pow10(k);
    p := start;
    temp := cand(p);
    while temp in existing
      invariant start <= p <= limit
      invariant temp == cand(p)
      invariant forall q :: start <= q < p ==> cand(q) in existing
      decreases limit - p
    {
      p := p + 1;
      temp := cand(p);
    }
  }

  /** The candidates of one search, as a function of the number. */
  function Candidates(s: Sections, left: string, right: string): nat -> string
  {
    n => Candidate(s, left, right, n)
  }

  /** Every candidate with `k + 1` or more digits is longer than `k`. */
  lemma CandidatesGrow(s: Sections, left: string, right: string)
    ensures forall n: nat, k: nat :: n >= Pow10(k) ==> |Candidates(s, left, right)(n)| > k
  {
    forall n: nat, k: nat | n >= Pow10(k) ensures |Candidates(s, left, right)(n)| > k {
      CandidateLength(s, left, right, n, k);
    }
  }

  /** `getNextAvailableFilePath(File, left, right)`: the candidate for the
      least number from `SearchStart` on whose path does not exist. The
      sections are computed once, before the search. */
  method NextAvailableFilePath(fs: FileSystem, f: File, left: string, right: string)
    returns (r: Result<File, JavaError>)
    requires Quotable(left) && Quotable(right)
    ensures IsBlank(Name(f)) ==> r == Ok(f)
    ensures !IsBlank(Name(f)) ==> (r.Err? <==> RegionStart(f) > RegionEnd(fs, f))
    ensures r.Err? ==> r.error == IndexOutOfBounds
    ensures r.Ok? && !IsBlank(Name(f)) ==>
              var s := SplitAtFileNumber(fs, f, FileNumberMatch(fs, f, left, right).value);
              exists p: nat :: IsFirstFree(fs.existing, Candidates(s, left, right), SearchStart(fs, f, left, right), p) &&
                r.value == Candidate(s, left, right, p)
  {
    if IsBlank(Name(f)) {
      return Ok(f);
    }
    var found := FileNumberMatch(fs, f, left, right);
    if found.Err? {
      return Err(found.error);
    }
    var s := SplitAtFileNumber(fs, f, found.value);
    CandidatesGrow(s, left, right);
    var p, temp := SearchFree(fs.existing, Candidates(s, left, right), SearchStart(fs, f, left, right));
    return Ok(Candidate(s, left, right, p));
  }
}

=== FILE: java_file.dfy ===
/** `java.io.File` on a Unix-like platform: a path string kept in
    normalized form, with `getParent()` and `getName()` computed from the
    last separator exactly as the JDK does. */
module JavaFile {
  import opened Wrappers
  import opened JavaText
  import Sequences

  /** `File.separatorChar`. */
  const Separator: char := '/'
  /** `File.pathSeparatorChar`. */
  const PathSeparator: char := ':'

  /** No two separators stand next to each other. */
  ghost predicate NoDoubleSeparator(s: string)
    decreases |s|
  {
    |s| < 2 || (!(s[0] == Separator && s[1] == Separator) && NoDoubleSeparator(s[1..]))
  }

  /** The form the `File` constructor leaves a path in: no run of
      separators and no trailing separator except for the root itself. */
  ghost predicate Normalized(s: string) {
    NoDoubleSeparator(s) && (|s| > 1 ==> s[|s| - 1] != Separator)
  }

  /** A `File`, identified with its normalized path string (`toString()`). */
  type File = s: string | Normalized(s)

  /** The characters of `s` other than separators, counted. */
  function NonSeparatorCount(s: string): nat
  {
    if s == [] then 0
    else (if s[0] == Separator then 0 else 1) + NonSeparatorCount(s[1..])
  }

  lemma {:induction false} NonSeparatorCountAppend(a: string, b: string)
    ensures NonSeparatorCount(a + b) == NonSeparatorCount(a) + NonSeparatorCount(b)
  {
    if a != [] {
      assert (a + b)[1..] == a[1..] + b;
      NonSeparatorCountAppend(a[1..], b);
    } else {
      assert a + b == b;
    }
  }

  lemma {:induction false} NonSeparatorCountFree(s: string)
    requires Separator !in s
    ensures NonSeparatorCount(s) == |s|
  {
    if s != [] {
      NonSeparatorCountFree(s[1..]);
    }
  }

  /** Collapses every run of separators into one. */
  function Collapse(s: string): (r: string)
    ensures NoDoubleSeparator(r)
    ensures NonSeparatorCount(r) == NonSeparatorCount(s)
    ensures |r| <= |s|
    ensures s != [] ==> r != [] && r[0] == s[0] && r[|r| - 1] == s[|s| - 1]
    ensures NoDoubleSeparator(s) ==> r == s
  {
    if |s| <= 1 then s
    else if s[0] == Separator && s[1] == Separator then
      Collapse(s[1..])
    else
      var t := Collapse(s[1..]);
      var r := [s[0]] + t;
      assert r[1..] == t;
      r
  }

  /** `new File(s)`: the JDK's Unix normalization of a path string. */
  function NewFile(s: string): (f: File)
    ensures Normalized(s) ==> f == s
    ensures NonSeparatorCount(f) == NonSeparatorCount(s)
    ensures |f| >= NonSeparatorCount(s)
  {
    var c := Collapse(s);
    if |c| > 1 && c[|c| - 1] == Separator then
      var r := c[..|c| - 1];
      NoDoubleSeparatorPrefix(c, |c| - 1);
      NoDoubleSeparatorAt(c, |c| - 2);
      assert c == r + [Separator];
      NonSeparatorCountAppend(r, [Separator]);
      assert NonSeparatorCount(r) <= |r| by { NonSeparatorCountBound(r); }
      r
    else
      assert NonSeparatorCount(c) <= |c| by { NonSeparatorCountBound(c); }
      c
  }

  /** `new File(s)` only drops separators: what is left is `s` with some
      characters taken out, the rest in their original order. */
  lemma NewFileSubsequence(s: string)
    ensures Sequences.IsSubsequence(NewFile(s), s)
  {
    var c := Collapse(s);
    CollapseSubsequence(s);
    if |c| > 1 && c[|c| - 1] == Separator {
      Sequences.PrefixSubsequence(c, |c| - 1);
      Sequences.SubsequenceTransitive(c[..|c| - 1], c, s);
    }
  }

  lemma {:induction false} CollapseSubsequence(s: string)
    ensures Sequences.IsSubsequence(Collapse(s), s)
    decreases |s|
  {
    if |s| > 1 {
      var t := Collapse(s[1..]);
      CollapseSubsequence(s[1..]);
      if s[0] == Separator && s[1] == Separator {
        Sequences.SubsequenceWeaken(t, s[1..], s[0]);
        assert [s[0]] + s[1..] == s;
      } else {
        assert ([s[0]] + t)[1..] == t;
      }
    } else if |s| == 1 {
      assert s[1..] == [];
    }
  }

  lemma {:induction false} NonSeparatorCountBound(s: string)
    ensures NonSeparatorCount(s) <= |s|
  {
    if s != [] {
      NonSeparatorCountBound(s[1..]);
    }
  }

  /** The length of the root prefix: 1 for an absolute path, else 0. */
  function PrefixLength(s: string): nat
  {
    if |s| > 0 && s[0] == Separator then 1 else 0
  }

  /** `File.getParent()`: everything before the last separator, the root
      for a child of the root, and `None` (Java's `null`) otherwise. */
  function Parent(s: string): (r: Option<string>)
    ensures r.Some? ==> |r.value| < |s| && r.value == s[..|r.value|]
    ensures r.None? ==> s == [Separator] || Separator !in s
  {
    var index := LastIndexOf(s, Separator);
    if index < PrefixLength(s) then
      if PrefixLength(s) > 0 && |s| > PrefixLength(s) then Some(s[..PrefixLength(s)])
      else None
    else Some(s[..index])
  }

  /** `getParent()` cuts at the last separator: everything before it when
      that separator lies past the start, the root for a child of the root,
      and null for the root itself or a path without separators. */
  lemma ParentAtLastSeparator(s: string)
    ensures LastIndexOf(s, Separator) == 0 && |s| > 1 ==> Parent(s) == Some([Separator])
    ensures LastIndexOf(s, Separator) > 0 ==> Parent(s) == Some(s[..LastIndexOf(s, Separator)])
    ensures LastIndexOf(s, Separator) < 0 || s == [Separator] ==> Parent(s).None?
  {
    if LastIndexOf(s, Separator) == 0 && |s| > 1 {
      assert s[..1] == [s[0]];
    }
  }

  /** `File.getName()`: everything after the last separator. */
  function Name(s: string): (r: string)
    ensures |r| <= |s| && r == s[|s| - |r|..]
    ensures Separator !in r
  {
    var index := LastIndexOf(s, Separator);
    if index < PrefixLength(s) then s[PrefixLength(s)..] else s[index + 1..]
  }

  /** `getParent() + File.separator` as Java evaluates it: a missing parent
      prints as the four letters "null". */
  function ParentText(s: string): string
  {
    match Parent(s)
    case Some(p) => p
    case None => "null"
  }

  /** Parent and name rebuild the path: directly below a directory the
      separator sits between them, below the root the root is the parent. */
  lemma ParentNameSplit(s: string)
    requires Normalized(s)
    ensures Parent(s).None? ==> s == Name(s) || s == [Separator]
    ensures Parent(s) == Some([Separator]) ==> s == [Separator] + Name(s)
    ensures Parent(s).Some? && Parent(s).value != [Separator] ==>
              s == Parent(s).value + [Separator] + Name(s)
  {
    var index := LastIndexOf(s, Separator);
    var k := PrefixLength(s);
    if index < k {
      if k == 1 {
        assert s == s[..1] + s[1..];
      }
    } else {
      assert Parent(s) == Some(s[..index]);
      assert Name(s) == s[index + 1..];
      assert s == s[..index] + [Separator] + s[index + 1..];
      if index == 1 {
        NoDoubleSeparatorAt(s, 0);
      }
    }
  }

  /** Separator-free text appended to a path without double separators
      leaves a normalized path. */
  lemma NormalizedAppend(a: string, b: string)
    requires NoDoubleSeparator(a) && Separator !in b && b != []
    ensures Normalized(a + b)
  {
    NoDoubleSeparatorAppend(a, b);
    assert (a + b)[|a + b| - 1] == b[|b| - 1];
  }

  lemma {:induction false} NoDoubleSeparatorAppend(a: string, b: string)
    requires NoDoubleSeparator(a) && Separator !in b
    ensures NoDoubleSeparator(a + b)
    decreases |a|
  {
    if a == [] {
      assert a + b == b;
      NoDoubleSeparatorFree(b);
    } else {
      assert (a + b)[1..] == a[1..] + b;
      NoDoubleSeparatorAppend(a[1..], b);
      if |a| == 1 && b != [] {
        assert (a + b)[1] == b[0];
      }
    }
  }

  lemma {:induction false} NoDoubleSeparatorPrefix(s: string, n: nat)
    requires NoDoubleSeparator(s) && n <= |s|
    ensures NoDoubleSeparator(s[..n])
    decreases n
  {
    if n >= 2 {
      assert s[..n][1..] == s[1..][..n - 1];
      NoDoubleSeparatorPrefix(s[1..], n - 1);
    }
  }

  lemma {:induction false} NoDoubleSeparatorAt(s: string, i: nat)
    requires NoDoubleSeparator(s) && i + 1 < |s|
    ensures !(s[i] == Separator && s[i + 1] == Separator)
    decreases i
  {
    if i > 0 {
      NoDoubleSeparatorAt(s[1..], i - 1);
    }
  }

  lemma {:induction false} NoDoubleSeparatorFree(s: string)
    requires Separator !in s
    ensures NoDoubleSeparator(s)
    decreases |s|
  {
    if s != [] {
      NoDoubleSeparatorFree(s[1..]);
    }
  }

  /** Text after the last separator can change without moving the parent. */
  lemma {:induction false} ParentOfAppend(a: string, b: string, c: string)
    requires Separator !in b && Separator !in c && c != []
    requires a + b != [Separator]
    ensures Parent(a + b) == Parent(a + c)
  {
    LastIndexOfAppend(a, b, Separator);
    LastIndexOfAppend(a, c, Separator);
    if a != [] {
      assert (a + b)[0] == a[0] == (a + c)[0];
    } else {
      assert a + b == b && a + c == c;
    }
    if PrefixLength(a + b) == 1 && LastIndexOf(a, Separator) == 0 {
      assert (a + b)[..1] == (a + c)[..1] == a[..1];
    }
    if LastIndexOf(a, Separator) >= 0 {
      var index := LastIndexOf(a, Separator);
      assert (a + b)[..index] == a[..index] == (a + c)[..index];
    }
  }
}

=== FILE: java_text.dfy ===
/** The parts of `java.lang.String`, `java.lang.Character` and
    `java.lang.Integer` that the file utilities rely on, with Java's own
    (and mutually different) notions of "blank" and "trim". */
module JavaText {
  import opened Wrappers
  import Sequences

  /** `Character.isWhitespace`: the Unicode space, line and paragraph
      separators except the three no-break spaces, plus the ASCII
      control characters U+0009..U+000D and U+001C..U+001F. */
  predicate IsWhitespace(c: char) {
    || ('\U{9}' <= c <= '\U{D}')
    || ('\U{1C}' <= c <= '\U{20}')
    || c == '\U{1680}'
    || ('\U{2000}' <= c <= '\U{2006}')
    || ('\U{2008}' <= c <= '\U{200A}')
    || c == '\U{2028}' || c == '\U{2029}'
    || c == '\U{205F}' || c == '\U{3000}'
  }

  /** `String.isBlank`: empty, or whitespace only. */
  predicate IsBlank(s: string) {
    forall i :: 0 <= i < |s| ==> IsWhitespace(s[i])
  }

  /** `String.trim` strips every character up to and including U+0020,
      which is a different set from `IsWhitespace`. */
  predicate IsTrimSpace(c: char) {
    c <= ' '
  }

  /** A string `String.trim` leaves unchanged. */
  predicate IsTrimmed(s: string) {
    s == [] || (!IsTrimSpace(s[0]) && !IsTrimSpace(s[|s| - 1]))
  }

  /** `String.trim`: trim-space is removed from both ends. */
  function Trim(s: string): (r: string)
    decreases |s|
    ensures IsTrimmed(r)
    ensures |r| <= |s|
    ensures IsTrimmed(s) ==> r == s
  {
    if s != [] && IsTrimSpace(s[0]) then Trim(s[1..])
    else if s != [] && IsTrimSpace(s[|s| - 1]) then Trim(s[..|s| - 1])
    else s
  }

  /** Trimming only removes characters: what is left was in `s`. */
  lemma {:induction false} TrimElements(s: string)
    ensures forall c :: c in Trim(s) ==> c in s
    decreases |s|
  {
    if s != [] && IsTrimSpace(s[0]) {
      TrimElements(s[1..]);
    } else if s != [] && IsTrimSpace(s[|s| - 1]) {
      TrimElements(s[..|s| - 1]);
    }
  }

  /** `String.trim` returns a slice of `s`: what it removes from either end
      is trim-space. */
  lemma {:induction false} TrimSlice(s: string) returns (i: nat, j: nat)
    decreases |s|
    ensures i <= j <= |s| && Trim(s) == s[i..j]
    ensures forall k :: 0 <= k < i ==> IsTrimSpace(s[k])
    ensures forall k :: j <= k < |s| ==> IsTrimSpace(s[k])
  {
    if s != [] && IsTrimSpace(s[0]) {
      var t := s[1..];
      var a, b := TrimSlice(t);
      i, j := a + 1, b + 1;
      assert t[a..b] == s[i..j];
      forall k | 0 < k < i ensures IsTrimSpace(s[k]) {
        assert s[k] == t[k - 1];
      }
      forall k | j <= k < |s| ensures IsTrimSpace(s[k]) {
        assert s[k] == t[k - 1];
      }
    } else if s != [] && IsTrimSpace(s[|s| - 1]) {
      var t := s[..|s| - 1];
      var a, b := TrimSlice(t);
      i, j := a, b;
      assert t[a..b] == s[a..b];
      forall k | j <= k < |s| - 1 ensures IsTrimSpace(s[k]) {
        assert s[k] == t[k];
      }
    } else {
      i, j := 0, |s|;
    }
  }

  /** Once trimmed, trimming again changes nothing. */
  lemma TrimIdempotent(s: string)
    ensures Trim(Trim(s)) == Trim(s)
  {
  }

  predicate StartsWith(s: string, prefix: string) {
    |prefix| <= |s| && s[..|prefix|] == prefix
  }

  /** `String.indexOf(c, from)`: the first position at or after `from`
      holding `c`. */
  function IndexOfFrom(s: string, c: char, from: nat): (r: Option<nat>)
    decreases |s| - from
    ensures r.Some? ==> from <= r.value < |s| && s[r.value] == c
    ensures r.Some? ==> forall i :: from <= i < r.value ==> s[i] != c
    ensures r.None? ==> forall i :: from <= i < |s| ==> s[i] != c
  {
    if from >= |s| then None
    else if s[from] == c then Some(from)
    else IndexOfFrom(s, c, from + 1)
  }

  /** The first `c` at or after `from` is where `indexOf` stops. */
  lemma {:induction false} IndexOfFromFirst(s: string, c: char, from: nat, i: nat)
    requires from <= i < |s| && s[i] == c
    requires forall j :: from <= j < i ==> s[j] != c
    ensures IndexOfFrom(s, c, from) == Some(i)
    decreases i - from
  {
    if from < i {
      IndexOfFromFirst(s, c, from + 1, i);
    }
  }

  /** Without a `c` at or after `from`, `indexOf` finds none. */
  lemma {:induction false} IndexOfFromAbsent(s: string, c: char, from: nat)
    requires forall i :: from <= i < |s| ==> s[i] != c
    ensures IndexOfFrom(s, c, from).None?
    decreases |s| - from
  {
    if from < |s| {
      IndexOfFromAbsent(s, c, from + 1);
    }
  }

  /** `String.lastIndexOf(c)`, with -1 for "absent". */
  function LastIndexOf(s: string, c: char): (r: int)
    ensures -1 <= r < |s|
    ensures r >= 0 ==> s[r] == c
    ensures forall i :: r < i < |s| ==> s[i] != c
  {
    if s == [] then -1
    else if s[|s| - 1] == c then |s| - 1
    else LastIndexOf(s[..|s| - 1], c)
  }

  /** `String.lastIndexOf` agrees with `List.lastIndexOf` on the string's
      characters. */
  lemma {:induction false} LastIndexOfIsLastIndex(s: string, c: char)
    ensures LastIndexOf(s, c) == Sequences.LastIndex(s, c)
  {
    if s != [] && s[|s| - 1] != c {
      LastIndexOfIsLastIndex(s[..|s| - 1], c);
    }
  }

  /** Appending text without `c` does not move the last `c`. */
  lemma {:induction false} LastIndexOfAppend(a: string, b: string, c: char)
    requires c !in b
    ensures LastIndexOf(a + b, c) == LastIndexOf(a, c)
  {
    if b != [] {
      var b' := b[..|b| - 1];
      assert (a + b)[..|a + b| - 1] == a + b';
      assert (a + b)[|a + b| - 1] == b[|b| - 1];
      LastIndexOfAppend(a, b', c);
    } else {
      assert a + b == a;
    }
  }

  // ----- decimal numbers -----

  const MaxInt: int := 0x7FFF_FFFF
  const MinInt: int := -0x8000_0000

  /** A Java `int`. */
  type Int32 = x: int | MinInt <= x <= MaxInt

  /** Java's two's-complement wrap-around of an `int` result. */
  function WrapInt32(x: int): (r: Int32)
    ensures MinInt <= x <= MaxInt ==> r == x
    ensures (r - x) % 0x1_0000_0000 == 0
  {
    (x - MinInt) % 0x1_0000_0000 + MinInt
  }

  /** `x + 1` on a Java `int`: `MaxInt` wraps around to `MinInt`. */
  function Increment(x: Int32): (r: Int32)
    ensures x < MaxInt ==> r == x + 1
    ensures x == MaxInt ==> r == MinInt
  {
    WrapInt32(x + 1)
  }

  /** Adding one to a wrapped value wraps like adding one first. */
  lemma IncrementWrap(x: int)
    ensures Increment(WrapInt32(x)) == WrapInt32(x + 1)
  {
  }

  /** The regular-expression class `\d` (ASCII digits only by default). */
  predicate IsDigit(c: char) {
    '0' <= c <= '9'
  }

  predicate AllDigits(s: string) {
    forall i :: 0 <= i < |s| ==> IsDigit(s[i])
  }

  function DigitChar(d: nat): (c: char)
    requires d < 10
    ensures IsDigit(c) && (c as int) - ('0' as int) == d
  {
    (('0' as int) + d) as char
  }

  /** The value of a string of decimal digits, leading zeros allowed. */
  function DigitsValue(s: string): nat
    requires AllDigits(s)
  {
    if s == [] then 0
    else DigitsValue(s[..|s| - 1]) * 10 + ((s[|s| - 1] as int) - ('0' as int))
  }

  /** `Integer.toString` of a non-negative number. */
  function NatToString(n: nat): (r: string)
    ensures |r| >= 1 && AllDigits(r)
    ensures |r| > 1 ==> r[0] != '0'
  {
    if n < 10 then [DigitChar(n)]
    else NatToString(n / 10) + [DigitChar(n % 10)]
  }

  /** The digits printed have the value printed. */
  lemma {:induction false} NatToStringValue(n: nat)
    ensures DigitsValue(NatToString(n)) == n
  {
    if n >= 10 {
      var r := NatToString(n);
      assert r[..|r| - 1] == NatToString(n / 10);
      NatToStringValue(n / 10);
    }
  }

  /** `Integer.toString`, as used by string concatenation of an `int`. */
  function IntToString(x: int): (r: string)
    ensures x >= 0 ==> r == NatToString(x)
    ensures x < 0 ==> r == ['-'] + NatToString(-x)
  {
    if x < 0 then ['-'] + NatToString(-x) else NatToString(x)
  }

  /** `Integer.parseInt` on the text a `\\d+` group can capture: the value
      of a non-empty digit string, and `None` where Java throws
      `NumberFormatException` (no digits, or a value above `MaxInt`). */
  function ParseInt(s: string): (r: Option<Int32>)
    ensures r.Some? <==> |s| >= 1 && AllDigits(s) && DigitsValue(s) <= MaxInt
    ensures r.Some? ==> r.value == DigitsValue(s)
  {
    if |s| >= 1 && AllDigits(s) && DigitsValue(s) <= MaxInt then Some(DigitsValue(s)) else None
  }

  function Pow10(k: nat): (r: nat)
    ensures r >= 1
  {
    if k == 0 then 1 else 10 * Pow10(k - 1)
  }

  /** A number of at least `10^k` needs more than `k` digits. */
  lemma {:induction false} NatToStringLength(n: nat, k: nat)
    requires n >= Pow10(k)
    ensures |NatToString(n)| > k
  {
    if k > 0 {
      assert n >= 10;
      assert n / 10 >= Pow10(k - 1);
      NatToStringLength(n / 10, k - 1);
    }
  }

  /** Printing then parsing gives the number back. */
  lemma ParseIntToString(n: nat)
    requires n <= MaxInt
    ensures ParseInt(NatToString(n)) == Some(n)
  {
    NatToStringValue(n);
  }
}

=== FILE: paths_extended.dfy ===
/** `PathsExtended.mismatch`: the index of the first differing name of two
    paths, roots ignored, optionally starting part-way along. */
module PathsExtended {
  import opened Wrappers

  /** A `java.nio.file.Path`: an optional root and its name elements. Two
      paths are equal when both parts are. */
  datatype Path = Path(root: Option<string>, names: seq<string>)
  {
    function NameCount(): nat { |names| }
  }

  function Min(a: int, b: int): int { if a <= b then a else b }
  function Max(a: int, b: int): int { if a >= b then a else b }

  /** The names of `a` and `b` agree on every index in `[lo, hi)`. */
  ghost predicate AgreeOn(a: seq<string>, b: seq<string>, lo: int, hi: int)
    requires 0 <= lo && hi <= |a| && hi <= |b|
  {
    forall j :: lo <= j < hi ==> a[j] == b[j]
  }

  /** The iterator loop of `mismatch`: walks both name lists from `i`. */
  function MismatchFrom(a: seq<string>, b: seq<string>, i: nat): (r: int)
    requires i <= |a| && i <= |b|
    decreases |a| - i
    ensures r == -1 || i <= r <= Min(|a|, |b|)
    ensures 0 <= r < Min(|a|, |b|) ==> a[r] != b[r] && AgreeOn(a, b, i, r)
    ensures r == Min(|a|, |b|) ==> |a| != |b| && AgreeOn(a, b, i, r)
    ensures r == -1 <==> |a| == |b| && AgreeOn(a, b, i, |a|)
  {
    if i < |a| && i < |b| then
      if a[i] != b[i] then i else MismatchFrom(a, b, i + 1)
    else if i < |a| || i < |b| then i
    else -1
  }

  /** `mismatch(path1, path2, fromIndex)`. */
  function Mismatch(p1: Path, p2: Path, fromIndex: int): (r: int)
    ensures p1 == p2 ==> r == -1
    ensures r == -1 || Min(Max(fromIndex, 0), Min(p1.NameCount(), p2.NameCount())) <= r <= Min(p1.NameCount(), p2.NameCount())
    ensures r >= 0 && fromIndex < Min(p1.NameCount(), p2.NameCount()) ==> r >= Max(fromIndex, 0)
    ensures p1 != p2 && fromIndex >= Min(p1.NameCount(), p2.NameCount()) ==>
              r == Min(p1.NameCount(), p2.NameCount())
    ensures 0 <= r < Min(p1.NameCount(), p2.NameCount()) ==>
              p1.names[r] != p2.names[r] && AgreeOn(p1.names, p2.names, Max(fromIndex, 0), r)
    ensures fromIndex < Min(p1.NameCount(), p2.NameCount()) && r == Min(p1.NameCount(), p2.NameCount()) ==>
              p1.NameCount() != p2.NameCount() && AgreeOn(p1.names, p2.names, Max(fromIndex, 0), r)
    ensures r == -1 <==>
              p1 == p2 ||
              (fromIndex < p1.NameCount() == p2.NameCount() &&
               AgreeOn(p1.names, p2.names, Max(fromIndex, 0), p1.NameCount()))
  {
    if p1 == p2 then -1
    else
      var length := Min(p1.NameCount(), p2.NameCount());
      if fromIndex >= length then length
      else MismatchFrom(p1.names, p2.names, Max(fromIndex, 0))
  }

  /** `mismatch(path1, path2)`. */
  function Mismatch2(p1: Path, p2: Path): (r: int)
    ensures r == Mismatch(p1, p2, 0)
  {
    Mismatch(p1, p2, 0)
  }

  /** A path never mismatches itself, wherever the search starts. */
  lemma MismatchSelf(p: Path, k: int)
    ensures Mismatch(p, p, k) == -1
  {
  }

  /** One name list running out first gives the shorter name count. */
  lemma MismatchProperPrefix(p1: Path, p2: Path, fromIndex: int)
    requires 0 <= fromIndex <= p1.NameCount() < p2.NameCount()
    requires p1.names == p2.names[..p1.NameCount()]
    ensures Mismatch(p1, p2, fromIndex) == p1.NameCount()
  {
  }

  /** Roots play no part once the search starts inside the names. */
  lemma MismatchIgnoresRoots(r1: Option<string>, r2: Option<string>, names: seq<string>, fromIndex: int)
    requires fromIndex < |names|
    ensures Mismatch(Path(r1, names), Path(r2, names), fromIndex) == -1
  {
  }

  /** Different roots but no names to compare: the shared count comes back. */
  lemma MismatchRootsOnly(r1: Option<string>, r2: Option<string>, names: seq<string>, fromIndex: int)
    requires r1 != r2 && fromIndex >= |names|
    ensures Mismatch(Path(r1, names), Path(r2, names), fromIndex) == |names|
  {
  }

  /** A negative start index is the same as starting at 0, except for two
      different paths that both have no names: from 0 the shared count 0
      comes back at once, from below 0 the empty loop reports no mismatch. */
  lemma MismatchNegativeStart(p1: Path, p2: Path, fromIndex: int)
    requires fromIndex < 0
    ensures Mismatch(p1, p2, fromIndex) ==
              (if p1 != p2 && p1.names == p2.names == [] then -1 else Mismatch(p1, p2, 0))
  {
  }

  /** Swapping the two paths gives the same answer. */
  lemma MismatchSymmetric(p1: Path, p2: Path, fromIndex: int)
    ensures Mismatch(p1, p2, fromIndex) == Mismatch(p2, p1, fromIndex)
  {
  }

  /** Paths whose first names differ mismatch at index 0. */
  lemma MismatchNoCommonPrefix(p1: Path, p2: Path)
    requires p1.NameCount() > 0 && p2.NameCount() > 0
    requires p1.names[0] != p2.names[0]
    ensures Mismatch2(p1, p2) == 0
  {
  }
}

=== FILE: sequences.dfy ===
/** Lists compared element by element with `equals`: `List.lastIndexOf`,
    and keeping only the first occurrence of each element. */
module Sequences {

  /** `List.lastIndexOf(x)`, with -1 for "absent". */
  function LastIndex<T(==)>(xs: seq<T>, x: T): (r: int)
    ensures -1 <= r < |xs|
    ensures r >= 0 ==> xs[r] == x
    ensures forall i :: r < i < |xs| ==> xs[i] != x
  {
    if xs == [] then -1
    else if xs[|xs| - 1] == x then |xs| - 1
    else LastIndex(xs[..|xs| - 1], x)
  }

  /** No copy of `x` follows its last index. */
  lemma LastIndexAbsentAfter<T>(xs: seq<T>, x: T)
    requires LastIndex(xs, x) >= 0
    ensures x !in xs[LastIndex(xs, x) + 1..]
  {
    var r := LastIndex(xs, x);
    var rest := xs[r + 1..];
    forall i | 0 <= i < |rest| ensures rest[i] != x {
      assert rest[i] == xs[r + 1 + i];
    }
  }

  /** `List.remove(int)`: the list without its element at `k`. */
  function RemoveAt<T>(xs: seq<T>, k: nat): (r: seq<T>)
    requires k < |xs|
    ensures |r| == |xs| - 1
    ensures forall i :: 0 <= i < k ==> r[i] == xs[i]
    ensures forall i :: k <= i < |r| ==> r[i] == xs[i + 1]
  {
    xs[..k] + xs[k + 1..]
  }

  /** The elements of `xs` other than `x`, in order. */
  function Without<T(==)>(xs: seq<T>, x: T): (r: seq<T>)
    ensures |r| <= |xs| && x !in r
  {
    if xs == [] then []
    else (if xs[0] == x then [] else [xs[0]]) + Without(xs[1..], x)
  }

  /** No element occurs twice. */
  predicate Distinct<T(==)>(xs: seq<T>) {
    forall i, j :: 0 <= i < j < |xs| ==> xs[i] != xs[j]
  }

  /** `xs` is `ys` with some elements left out, the rest in order. */
  predicate IsSubsequence<T(==)>(xs: seq<T>, ys: seq<T>)
    decreases |ys|
  {
    if xs == [] then true
    else if ys == [] then false
    else if xs[0] == ys[0] then IsSubsequence(xs[1..], ys[1..])
    else IsSubsequence(xs, ys[1..])
  }

  /** The first occurrence of every element, in their original order. */
  function Dedup<T(==)>(xs: seq<T>): (r: seq<T>)
    decreases |xs|
  {
    if xs == [] then []
    else [xs[0]] + Dedup(Without(xs[1..], xs[0]))
  }

  lemma HeadTail<T>(xs: seq<T>)
    requires xs != []
    ensures [xs[0]] + xs[1..] == xs
  {
  }

  lemma AppendAssociative<T>(a: seq<T>, b: seq<T>, c: seq<T>)
    ensures a + (b + c) == (a + b) + c
  {
  }

  lemma AppendAssociative3<T>(a: seq<T>, b: seq<T>, c: seq<T>, d: seq<T>)
    ensures a + b + c + d == a + (b + c + d)
  {
  }

  lemma {:induction false} WithoutAppend<T>(a: seq<T>, b: seq<T>, x: T)
    ensures Without(a + b, x) == Without(a, x) + Without(b, x)
  {
    if a != [] {
      assert (a + b)[1..] == a[1..] + b;
      WithoutAppend(a[1..], b, x);
    } else {
      assert a + b == b;
    }
  }

  /** `Without` keeps exactly the elements other than `x`. */
  lemma {:induction false} WithoutElements<T>(xs: seq<T>, x: T)
    ensures forall y :: y in Without(xs, x) <==> y in xs && y != x
  {
    if xs != [] {
      WithoutElements(xs[1..], x);
      assert xs == [xs[0]] + xs[1..];
    }
  }

  /** Removing elements that are not there changes nothing. */
  lemma {:induction false} WithoutAbsent<T>(xs: seq<T>, x: T)
    requires x !in xs
    ensures Without(xs, x) == xs
  {
    if xs != [] {
      WithoutAbsent(xs[1..], x);
    }
  }

  /** Removing one occurrence of `x` before removing them all gives the
      same list. */
  lemma WithoutRemoveAt<T>(xs: seq<T>, k: nat, x: T)
    requires k < |xs| && xs[k] == x
    ensures Without(RemoveAt(xs, k), x) == Without(xs, x)
  {
    var rest := xs[k + 1..];
    assert xs == xs[..k] + ([x] + rest);
    WithoutAppend(xs[..k], [x] + rest, x);
    assert ([x] + rest)[1..] == rest;
    assert Without([x] + rest, x) == Without(rest, x);
    WithoutAppend(xs[..k], rest, x);
  }

  /** `Dedup` keeps exactly the elements of `xs`. */
  lemma {:induction false} DedupElements<T>(xs: seq<T>)
    ensures forall y :: y in Dedup(xs) <==> y in xs
    decreases |xs|
  {
    if xs != [] {
      DedupElements(Without(xs[1..], xs[0]));
      WithoutElements(xs[1..], xs[0]);
      assert xs == [xs[0]] + xs[1..];
    }
  }

  /** `Dedup` leaves no duplicates. */
  lemma {:induction false} DedupDistinct<T>(xs: seq<T>)
    ensures Distinct(Dedup(xs))
    decreases |xs|
  {
    if xs != [] {
      var rest := Without(xs[1..], xs[0]);
      DedupDistinct(rest);
      DedupElements(rest);
      var r := Dedup(xs);
      forall i, j | 0 <= i < j < |r| ensures r[i] != r[j] {
        if i == 0 {
          assert r[j] == Dedup(rest)[j - 1];
          assert r[j] in Dedup(rest);
        } else {
          assert r[i] == Dedup(rest)[i - 1] && r[j] == Dedup(rest)[j - 1];
        }
      }
    }
  }

  lemma {:induction false} WithoutSubsequence<T>(xs: seq<T>, x: T)
    ensures IsSubsequence(Without(xs, x), xs)
  {
    if xs != [] {
      WithoutSubsequence(xs[1..], x);
      var w := Without(xs[1..], x);
      if xs[0] != x {
        assert ([xs[0]] + w)[1..] == w;
      } else {
        assert Without(xs, x) == w;
        assert w != [] ==> w[0] != xs[0];
      }
    }
  }

  /** A subsequence stays one when an element is put in front of the
      longer list, or dropped from the front of the shorter. */
  lemma {:induction false} SubsequenceWeaken<T>(xs: seq<T>, ys: seq<T>, y: T)
    requires IsSubsequence(xs, ys)
    ensures xs != [] ==> IsSubsequence(xs[1..], ys)
    ensures IsSubsequence(xs, [y] + ys)
    decreases |ys|
  {
    if xs != [] {
      assert ys == [ys[0]] + ys[1..];
      if xs[0] != ys[0] {
        SubsequenceWeaken(xs, ys[1..], ys[0]);
      }
      SubsequenceWeaken(xs[1..], ys[1..], ys[0]);
      assert ([y] + ys)[1..] == ys;
    }
  }

  /** Every prefix of a list is a subsequence of it. */
  lemma {:induction false} PrefixSubsequence<T>(xs: seq<T>, k: nat)
    requires k <= |xs|
    ensures IsSubsequence(xs[..k], xs)
    decreases k
  {
    if k > 0 {
      PrefixSubsequence(xs[1..], k - 1);
      assert xs[..k][1..] == xs[1..][..k - 1];
    }
  }

  lemma {:induction false} SubsequenceTransitive<T>(xs: seq<T>, ys: seq<T>, zs: seq<T>)
    requires IsSubsequence(xs, ys) && IsSubsequence(ys, zs)
    ensures IsSubsequence(xs, zs)
    decreases |zs|
  {
    if xs != [] && zs != [] {
      if ys[0] == zs[0] {
        if xs[0] == ys[0] {
          SubsequenceTransitive(xs[1..], ys[1..], zs[1..]);
        } else {
          SubsequenceTransitive(xs, ys[1..], zs[1..]);
        }
      } else {
        SubsequenceTransitive(xs, ys, zs[1..]);
        SubsequenceWeaken(xs, zs[1..], zs[0]);
        assert zs == [zs[0]] + zs[1..];
      }
    }
  }

  /** `Dedup` keeps the relative order of the elements it keeps. */
  lemma {:induction false} DedupSubsequence<T>(xs: seq<T>)
    ensures IsSubsequence(Dedup(xs), xs)
    decreases |xs|
  {
    if xs != [] {
      var rest := Without(xs[1..], xs[0]);
      DedupSubsequence(rest);
      WithoutSubsequence(xs[1..], xs[0]);
      SubsequenceTransitive(Dedup(rest), rest, xs[1..]);
      assert Dedup(xs)[1..] == Dedup(rest);
    }
  }

  /** A list without duplicates is its own `Dedup`; in particular `Dedup`
      is idempotent. */
  lemma {:induction false} DedupOfDistinct<T>(xs: seq<T>)
    requires Distinct(xs)
    ensures Dedup(xs) == xs
    decreases |xs|
  {
    if xs != [] {
      assert xs[0] !in xs[1..] by {
        forall i | 0 <= i < |xs| - 1 ensures xs[1..][i] != xs[0] {
          assert xs[1..][i] == xs[i + 1];
        }
      }
      WithoutAbsent(xs[1..], xs[0]);
      DedupOfDistinct(xs[1..]);
    }
  }

  lemma DedupIdempotent<T>(xs: seq<T>)
    ensures Dedup(Dedup(xs)) == Dedup(xs)
  {
    DedupDistinct(xs);
    DedupOfDistinct(Dedup(xs));
  }

  /** It is the first occurrence that survives: a later copy of an element
      adds nothing, a new element is added at the end. */
  lemma {:induction false} DedupSnoc<T>(xs: seq<T>, x: T)
    ensures Dedup(xs + [x]) == Dedup(xs) + (if x in xs then [] else [x])
    decreases |xs|
  {
    if xs == [] {
      assert Without([], x) == [];
    } else {
      var y := xs[0];
      assert (xs + [x])[1..] == xs[1..] + [x];
      WithoutAppend(xs[1..], [x], y);
      var rest := Without(xs[1..], y);
      if x == y {
        assert Without(xs[1..] + [x], y) == rest;
      } else {
        assert Without(xs[1..] + [x], y) == rest + [x];
        DedupSnoc(rest, x);
        WithoutElements(xs[1..], y);
        assert xs == [y] + xs[1..];
        assert x in rest <==> x in xs;
      }
    }
  }
}

=== FILE: wrappers.dfy ===
/** Optional values and results with an error, standing in for Java's
    `null` and for the exceptions the modelled operations throw. */
module Wrappers {

  /** `None` plays the part of a Java `null`. */
  datatype Option<+T> = None | Some(value: T)

  /** The outcome of an operation that may throw. */
  datatype Result<+T, +E> = Ok(value: T) | Err(error: E)

  /** The Java exceptions that the modelled operations can raise. */
  datatype JavaError =
    | IllegalArgument      // java.lang.IllegalArgumentException
    | IndexOutOfBounds     // java.lang.IndexOutOfBoundsException
    | NullPointer          // java.lang.NullPointerException
}
